=== FILE: README.md ===
# Job board core in Dafny

A model of the server core of a small job board. Employers post jobs, job
seekers apply, and employers move applications between statuses. The model
covers the following pieces:

- the Express request handlers for jobs, applications and accounts;
- the `auth`, `employerOnly` and `employerAuth` gates and the error handler;
- the input validators and the HTML sanitiser;
- the status logic of the employer's applications page and the client's
  `PrivateRoute` guard.

The MySQL database is three immutable tables keyed by their auto-increment
ids (`Tables.Table`). The invariant of every reachable state is
`Schema.Consistent`. Three of its parts are guaranteed by the schema's
declarations:

- unique e-mails (compared letter case aside);
- the `role`, `type` and `status` enums;
- the foreign keys.

The fourth part, at most one application per (job, applicant), has no
UNIQUE key behind it. The handlers maintain it: `createApplication` checks
for an existing pair before it inserts.

Each state-changing handler is a pure function from the database, the
caller (`req.user`) and the request to the HTTP reply and the new database.
A separate lemma proves that the handler keeps `Consistent`.

The following are parameters rather than code:

- bcrypt (`hash`, `matches`);
- the JWT signer and verifier (`sign`, `verify`);
- the random reset token;
- the clock (`now`);
- `CLIENT_URL`.

Files, one module each:

| file | module | models |
|---|---|---|
| common.dfy | Common | `Option`, duplicate-freedom, an order-keeping `Filter` |
| strings.dfy | Strings | character classes, `toLowerCase`, `trim`, substring search, `String.replace` with a string pattern |
| tables.dfy | Tables | an AUTO_INCREMENT table: insert, update, delete, cascade, first matching row |
| listing.dfy | Listing | `WHERE … ORDER BY created_at DESC` over a table |
| schema.dfy | Schema | the three tables' records, enums, defaults and constraints; replies |
| validation.dfy | Validation | server/utils/validation.js |
| jobs.dfy | Jobs | server/controllers/jobController.js |
| applications.dfy | Applications | server/controllers/applicationController.js |
| accounts.dfy | Accounts | server/controllers/authController.js |
| gates.dfy | Gates | server/middleware/auth.js |
| employer_auth.dfy | EmployerAuth | server/middleware/employerAuth.js |
| errors.dfy | Errors | server/utils/errorHandler.js |
| employer_view.dfy | EmployerView | client/src/pages/EmployerApplications.js |
| private_route.dfy | PrivateRoute | client/src/components/PrivateRoute.js |

### How the code's behaviour is read

- **Database errors.** MySQL runs in strict mode, so a write the schema
  refuses throws, and the handler's `catch` answers 500. The model refuses
  these writes:
  - a value that names no member of an ENUM, in any letter case;
  - a VARCHAR(255) value longer than 255 characters (title, company,
    location, username, e-mail);
  - a salary outside DECIMAL(10, 2), i.e. 10^8 or more in absolute value;
  - NULL in a NOT NULL column;
  - a foreign key with no row.

  This is why `createJob` with an unknown type and
  `updateApplicationStatus` with "reviewing" answer 500 and change nothing.
- **Collation.** The tables use MySQL's default case-insensitive collation
  (`Schema.SameText`). `=` and `LIKE` in a WHERE clause and the UNIQUE
  index on e-mail compare letter case aside. An ENUM column stores the
  member a value names in any case (`Schema.EnumValue`): type "Remote" is
  stored as 'remote', status "Accepted" as 'accepted'.
- **Request fields.** A request field missing from the body is `None`. For
  the job fields, whose handlers test truthiness, a missing field is the
  empty string. A salary of 0 counts as missing.
- **Row lookups.** A lookup that reads `rows[0]` of a `SELECT` takes the
  row with the lowest id.
- **Ordering.** Rows with equal `created_at` may be listed in either order.
- **Application status.** The column has no NOT NULL, so the model lets it
  hold NULL. An update without a `status` field stores NULL. The
  employer's page then cannot render its first tab: the status chip calls
  `charAt` on the NULL status and throws.

### Where the code and its description disagree (the model follows the code)

- **Status transitions.** The server enforces no transition order.
  `updateApplicationStatus` writes any status of the enum over any other.
  Only the client's buttons impose an order.
- **Statuses the table cannot hold.** The client offers "reviewing" and
  "interview", which are not in the `status` enum. The server answers them
  with 500, and the page then leaves the card as it was.
- **Not-owner answers.** A job the caller does not own is 404 in
  `updateJob`, `deleteJob` and `getJobApplications`. An application on
  another employer's job is 403.
- **No role check on applying.** `createApplication` checks no role: any
  authenticated user may apply.
- **Validators unused.** `validation.js` is called by no handler. Its
  application rule reads `coverLetter`, while the handler reads
  `cover_letter`.
- **Missing fields in `register`.** A body missing a field answers 500
  rather than 400.

## Model

| member | source | states |
|---|---|---|
| Schema.EnumValue | server/server.js:65 | a stored value is a member equal to the given one letter case aside, and nothing is stored only when no lower-case member matches |
| Schema.EnumIgnoresCase | server/server.js:80 | a member is stored as itself, and any value is stored as its lower-case form would be |
| Validation.EmailIgnoresCase | server/utils/validation.js:3 | an address and its lower-cased form are accepted or refused together |
| Validation.AcceptedEmailShape | server/utils/validation.js:2-3 | every accepted address has exactly one '@' and ends with a '.' followed only by letters, at least two of them |
| Validation.PasswordRule | server/utils/validation.js:6-10 | on a single line, a password is accepted iff it has at least 8 characters including a lower-case letter, an upper-case letter and a digit |
| Validation.PasswordSecondLineIgnored | server/utils/validation.js:8 | a class that first occurs after a line break does not satisfy its lookahead: "abcdefg1\nX" is refused |
| Validation.JobProblems | server/utils/validation.js:15-37 | the failed checks, each at most once and in the order the checks run, so at most six; a check is listed iff it fails |
| Validation.FailsByField | server/utils/validation.js:15-37 | each check in terms of the fields: trimmed title < 3, company < 2, location < 2, type outside the four, description < 50, negative salary |
| Validation.NoProblemsIffAcceptable | server/utils/validation.js:12-40 | no check fails iff the job satisfies every rule |
| Validation.ValidateJobInput | server/utils/validation.js:12-40 | one message per failed check in check order, at most six, and none iff the job satisfies every rule |
| Validation.RequirementsIgnored | server/utils/validation.js:12-40 | changing `requirements` never changes the result |
| Validation.ValidateApplication | server/utils/validation.js:42-50 | the single cover-letter message iff the trimmed cover letter (empty when missing) is shorter than 100, otherwise no message |
| Applications.CoverLetterNotValidated | server/controllers/applicationController.js:3-54 | `createApplication` never runs the cover-letter rule: for a caller who may apply, any letter is stored, including "x", which `validateApplication` refuses |
| Validation.SanitizeInput | server/utils/validation.js:52-62 | non-strings are returned unchanged; a string is escaped character by character |
| Validation.SanitizeChainIsEscape | server/utils/validation.js:56-61 | the five chained global replacements equal the per-character entity map, with '&' copied as it is |
| Validation.Escape | server/utils/validation.js:56-61 | the escaped text contains none of the five escaped characters and is never shorter than the input |
| Validation.SanitizeIdempotent | server/utils/validation.js:52-62 | sanitising twice gives the same value as sanitising once |
| Jobs.GetAllJobs | server/controllers/jobController.js:3-39 | a job is listed iff it joins its employer and matches every given filter, each compared letter case aside (search text in title, company or description; location text; type unless exactly 'all'); each job once; newest first; with no filter every job |
| Jobs.TypeFilterIgnoresCase | server/controllers/jobController.js:26-28 | a type filter lists the same jobs in any letter case, 'all' aside |
| Jobs.UpperCaseAllListsNothing | server/controllers/jobController.js:26-28 | `?type=ALL` is a filter, not 'all', and matches no job of the enum |
| Jobs.GetJobById | server/controllers/jobController.js:41-61 | the job with that id, or 404 'Job not found'; in a consistent store found iff the id exists |
| Jobs.CreateJob | server/controllers/jobController.js:63-105 | succeeds iff all seven fields are truthy, strict mode takes the row (type names an enum member in any case; title, company and location at most 255 characters; salary within DECIMAL(10, 2)) and the caller has a user row; then exactly one job is added with a fresh id, the caller as employer, the request's fields and the type as its member, with 201; otherwise 500 and no change |
| Jobs.UpdateJob | server/controllers/jobController.js:107-156 | missing fields give 500 before ownership is checked; an unowned or missing job gives 404 with no change; a row strict mode refuses gives 500 with no change; success rewrites the seven fields of that job only, the type as its member, keeping its id, employer and creation time |
| Jobs.CreateIgnoresTypeCase | server/controllers/jobController.js:78-82 | creating with a type in any letter case has the same outcome as with its lower-case form |
| Jobs.JobInputNotValidated | server/controllers/jobController.js:63-105 | `createJob` never runs the job rules: a job with the two-letter title "ab", which `validateJobInput` refuses, is created |
| Jobs.UpdateIgnoresTypeCase | server/controllers/jobController.js:133-139 | updating with a type in any letter case has the same outcome as with its lower-case form |
| Jobs.DeleteJob | server/controllers/jobController.js:158-186 | an unowned or missing job gives 404 with no change; the owner's delete removes exactly that job and, by the cascade, exactly its applications |
| Jobs.GetEmployerJobs | server/controllers/jobController.js:188-213 | exactly the caller's jobs, each once, newest first |
| Jobs.CreateJobKeepsConsistent | server/controllers/jobController.js:78-82 | creating a job keeps every schema constraint |
| Jobs.UpdateJobKeepsConsistent | server/controllers/jobController.js:133-139 | updating a job keeps every schema constraint |
| Jobs.DeleteJobKeepsConsistent | server/controllers/jobController.js:175-178 | deleting a job, with its applications, keeps every schema constraint |
| Applications.CreateApplication | server/controllers/applicationController.js:3-54 | a missing job gives 404 and an existing (job, applicant) pair gives 400, both with no change; success adds exactly one pending application for the job by the caller with the cover letter, with 201; a missing cover letter gives 500 |
| Applications.CreateApplicationKeepsConsistent | server/controllers/applicationController.js:22-35 | applying keeps the invariant: the schema's constraints, and the one-application-per-pair rule that only the handler's check before the insert maintains |
| Applications.ApplyOnlyOnce | server/controllers/applicationController.js:22-29 | after a successful application, applying again to the same job gives 400 |
| Applications.GetUserApplications | server/controllers/applicationController.js:56-72 | exactly the caller's applications, each once, newest first |
| Applications.GetJobApplications | server/controllers/applicationController.js:74-102 | an error iff the caller does not own the job, and then exactly 404 'Job not found or unauthorized'; otherwise a success with exactly that job's applications, each once, newest first |
| Applications.GetEmployerApplications | server/controllers/applicationController.js:104-124 | exactly the applications to the caller's jobs, each once, newest first |
| Applications.UpdateApplicationStatus | server/controllers/applicationController.js:126-167 | a missing application gives 404 and another employer's gives 403; success writes into that row only, whatever its current status, NULL for an absent status or the enum member the status names in any case, and replies with the stored row; for the owner, a status naming no member gives exactly 500 'Error updating application status' with no change |
| Applications.StoredStatus | server/controllers/applicationController.js:148-151 | an absent status stores NULL, a status naming an enum member in any case stores that member, and any other status stores nothing |
| Applications.UpdateIgnoresStatusCase | server/controllers/applicationController.js:148-151 | a status in any letter case has the same outcome as its lower-case form: "Accepted" stores 'accepted' |
| Applications.AnyTransitionAccepted | server/controllers/applicationController.js:148-151 | the owner can set any enum status from any status, backwards included |
| Applications.UpdateKeepsApplied | server/controllers/applicationController.js:148-151 | a status update changes no (job, applicant) pair |
| Applications.UpdateStatusKeepsConsistent | server/controllers/applicationController.js:148-151 | a status update keeps every schema constraint |
| Accounts.Register | server/controllers/authController.js:6-48 | an e-mail taken letter case aside gives 400 with no change; otherwise, with every field present, a role naming an enum member in any case and username and e-mail of at most 255 characters, exactly one user is added with a fresh id, the given username and e-mail, the role as its member, the hashed password and no reset token; the reply echoes the request's fields with that id and a token signed for the role as spelled in the request; otherwise 500 |
| Accounts.RegisterKeepsConsistent | server/controllers/authController.js:11-28 | registration keeps every schema constraint, in particular unique e-mails |
| Accounts.Login | server/controllers/authController.js:50-90 | succeeds iff some user has that e-mail, letter case aside, and the password matches, replying with that user's stored id, username, e-mail and role; an unknown e-mail and a wrong password give the same 400 |
| Accounts.RegisterThenLogin | server/controllers/authController.js:6-90 | logging in with the registered e-mail and password returns the registered user with the stored role; the reply equals registration's when the role was spelled as its member |
| Accounts.RegisterTokenKeepsRequestCase | server/controllers/authController.js:24-43 | registering as "Employer" stores 'employer', but the token handed back carries "Employer", which `employerOnly` refuses, while a token for the stored role passes |
| Accounts.ForgotPassword | server/controllers/authController.js:111-150 | an unknown e-mail gives 404 with no change; otherwise only that user's reset token and expiry change, the expiry being now + 3600000 ms, and the reply carries the token and the reset link |
| Accounts.ForgotKeepsConsistent | server/controllers/authController.js:132-135 | issuing a reset token keeps every schema constraint |
| Accounts.ResetPassword | server/controllers/authController.js:153-184 | 400 iff no user holds the token, compared letter case aside, with an expiry after now; with a live holder and no new password, 500 with no change; with both, the lowest-id holder's password becomes the new hash and both reset fields are cleared, nothing else changing |
| Accounts.ResetKeepsConsistent | server/controllers/authController.js:174-177 | a password reset keeps every schema constraint |
| Accounts.ForgotThenReset | server/controllers/authController.js:111-184 | when no other user holds the token, a token issued by forgot-password resets its user's password before the hour is over and is refused from then on |
| Accounts.ResetSingleUse | server/controllers/authController.js:170-177 | when no other user holds the token, the same token is refused after a successful reset |
| Accounts.ResetIgnoresTokenCase | server/controllers/authController.js:158-161 | a token in any letter case has the same reset outcome as its lower-case form |
| Accounts.ResetLink | server/controllers/authController.js:144 | the link is the client address, or the default address when it is unset, followed by /reset-password/ and the token |
| Gates.ExtractToken | server/middleware/auth.js:8 | the first occurrence of "Bearer " is cut out wherever it is, so a header starting with it loses that prefix; a header without "Bearer " is taken whole |
| Gates.NotAPrefixStrip | server/middleware/auth.js:8 | "Bearer " is removed from the middle of a header too |
| Gates.BareTokenAccepted | server/middleware/auth.js:8-24 | a bare token and the same token after "Bearer " are admitted alike |
| Gates.Authenticate | server/middleware/auth.js:3-29 | no header or an empty token gives 401 without verification; a refused token gives 401 'Token verification failed…'; a verified token admits the request with its claims |
| Gates.EmployerOnly | server/middleware/auth.js:31-46 | no user gives 403 'Access denied. No user found.', another role gives 403 'Access denied. Employers only.', an employer passes |
| Gates.EmployerChain | server/middleware/auth.js:3-46 | behind `auth` the no-user refusal never happens, and the chain admits iff the token verifies with the employer role |
| EmployerAuth.EmployerAuth | server/middleware/employerAuth.js:1-13 | no user gives 401 before the role is looked at, another role gives 403, an employer passes; exactly one of the three |
| EmployerAuth.SameDecisionAsEmployerOnly | server/middleware/employerAuth.js:1-13 | it admits exactly what `employerOnly` admits, differing only in the missing-user code and the refusal wording |
| Errors.ErrorResponse | server/utils/errorHandler.js:1-6 | the error carries exactly the given message and status code |
| Errors.ErrorHandler | server/utils/errorHandler.js:8-42 | the token-error names win over the MySQL codes, and each MySQL code maps to its own reply; otherwise the error's own code (500 when missing or 0) and message ('Server Error' when empty) are used; success is always false |
| Errors.ErrorResponseRoundTrip | server/utils/errorHandler.js:1-42 | a thrown `ErrorResponse` comes back with its own status and message, defaults standing in for falsy ones |
| Errors.StatusNeverZero | server/utils/errorHandler.js:38 | the reply status is never 0 |
| EmployerView.Actions | client/src/pages/EmployerApplications.js:319-360 | for a string status: pending offers reviewing, accepted and rejected; reviewing offers interview, accepted and rejected; accepted and rejected offer nothing; any other string offers accepted and rejected |
| EmployerView.OnlyFirstTabBreaks | client/src/pages/EmployerApplications.js:239-261 | every tab but the first always renders; the first fails to render exactly when some card's status is NULL |
| EmployerView.NullStatusBreaksPage | client/src/pages/EmployerApplications.js:261 | after the owner stores NULL through a PUT without a status, a list fetched from the store cannot render the first tab |
| EmployerView.TabFilter | client/src/pages/EmployerApplications.js:150-156 | tab 0 shows the whole list; tab i shows exactly the cards whose status is the i-th tab's; a tab past the last shows none |
| EmployerView.TabFilterKeepsOrder | client/src/pages/EmployerApplications.js:154-156 | tabs keep the list order: a split list shows the first part's cards before the second's |
| EmployerView.AfterUpdate | client/src/pages/EmployerApplications.js:99-114 | after a successful PUT only cards with that id get the new status, length and order kept; after a failed PUT the list is unchanged |
| EmployerView.ViewMirrorsStore | client/src/pages/EmployerApplications.js:99-114 | after a status change through any of the page's buttons the list still shows each row's stored status |
| EmployerView.OfferedTransitionsAtServer | client/src/pages/EmployerApplications.js:319-360 | the reviewing and interview buttons get 500 and change nothing; accept and reject succeed for the owner |
| EmployerView.UnreachableTabsEmpty | client/src/pages/EmployerApplications.js:151-156 | with the list in step with the store, the Reviewing and Interview tabs are always empty |
| EmployerView.StatusColor | client/src/pages/EmployerApplications.js:116-131 | every status gets one of five colours, and 'default' exactly for pending, NULL and unknown statuses |
| EmployerView.StoreColours | client/src/pages/EmployerApplications.js:116-131 | with the list in step with a consistent store, no card is coloured 'primary' or 'info': only default, success and error are ever shown |
| EmployerView.PageMatchesServerGate | client/src/pages/EmployerApplications.js:138-140 | the page admits exactly the users `employerOnly` lets through |
| PrivateRoute.Guard | client/src/components/PrivateRoute.js:5-16 | no user goes to /login before the role is looked at; with the flag a non-employer goes to /jobs; everyone else sees the page |
| PrivateRoute.LoggedInSuffices | client/src/components/PrivateRoute.js:5-16 | without the flag, which is off by default, any logged-in user sees the page, and an employer always does |
| PrivateRoute.GuardMatchesServerGate | client/src/components/PrivateRoute.js:5-16 | with the flag, the page shows exactly for the users `employerOnly` admits; with the default flag, a logged-in non-employer sees a page the server refuses with 403 'Access denied. Employers only.' |
| Listing.SelectNewestFirst | server/controllers/jobController.js:31 | every kept row exactly once, newest first |

## Left out

- Connection pool, SQL text and table creation: the model keeps only the schema's constraints (server/server.js:60-100); a database failure other than a refused write is not modelled.
- The columns added by the listing JOINs (`employer_name`, `job_title`, `company`, `applicant_name`, `applicant_email`, `formatted_date`): a row is listed iff the joins find its job and user; the extra columns are display data.
- Jobs.GetAllJobs: '%' and '_' inside the search or location text are SQL wildcards; the model reads them as plain characters.
- Schema.SameText: the collation is modelled for ASCII letter case only; its accent folding (`ai`), non-ASCII case folding and the trailing-space rules of PAD SPACE collations are not.
- Schema.EnumValue: MySQL also takes a number as an ENUM's 1-based index (2 for the second member); the model's request fields are strings, so a JSON number for type, role or status is not modelled.
- Jobs.CreateJob: MySQL silently truncates a VARCHAR value whose characters past the 255th are all spaces, and the insert succeeds; the model refuses every value over 255 characters. The TEXT limit of 65,535 bytes on description and requirements is not modelled.
- Jobs.UpdateJob: the same trailing-space truncation and TEXT limit as `createJob` are not modelled.
- Accounts.Register: the same trailing-space truncation is not modelled for username and e-mail.
- Accounts.ResetPassword: the digest written by reset, like the one written by register, and the token written by forgot-password are parameters; their lengths (60 and 40 characters in the code) are taken to fit their VARCHAR(255) columns.
- Applications.CreateApplication: the TEXT limit of 65,535 bytes on the cover letter is not modelled.
- EmployerView.Actions: a card whose status is NULL makes the page throw before its buttons render (client/src/pages/EmployerApplications.js:261); `Actions(None)` states what the button conditions alone would offer, and `TabRenders` states when the page renders at all.
- `toLowerCase` and `trim` cover ASCII letters and the ASCII and common Unicode white space; other Unicode case mappings are not modelled, and lengths count characters rather than UTF-16 units.
- Salary is an integer or absent: fractional amounts, the rounding of DECIMAL(10, 2) to two places, `isNaN` and JavaScript number coercion are not modelled; the range of DECIMAL(10, 2) is.
- Validation.PasswordRule: stated for passwords without line breaks; with one, `ValidatePassword` still models the lookaheads exactly, and PasswordSecondLineIgnored shows the difference.
- Accounts.ResetPassword: the `token` field is modelled as a string. A JSON number or object sent there (server/controllers/authController.js:154,158-160) reaches MySQL unconverted. By MySQL's conversion rules the number 0 equals every live token that does not start with a digit, and mysql2 expands an object into a comparison of the column with itself that every live holder passes. Either way a caller who does not hold the token string resets a password, which `ResetPassword` and `OnlyHolderResets` do not cover.
- Accounts.Login: the same holds for a non-string `email` (server/controllers/authController.js:51,55-57); such a value can select a user whose e-mail differs from the one sent, and that is not modelled.
- Accounts.ForgotPassword: the same holds for a non-string `email` (server/controllers/authController.js:112,116-118); such a value can set the token of a user whose e-mail differs from the one sent, and that is not modelled.
- Request values are strings or absent throughout the model; other JSON values and the arrays and objects that Express's query parser builds are not modelled (see also the Schema.EnumValue line).
- Concurrency: the check-then-insert of `register` and `createApplication` is modelled as one atomic step.
- Times are integers in milliseconds; DATETIME rounding to seconds is not modelled.
- bcrypt, `jwt.sign`/`jwt.verify`, the JWT secret and token lifetime, `crypto.randomBytes` and the clock are parameters.
- `getProfile` (server/controllers/authController.js:92-108) is not part of this model.
- The alternative routes (`/apply`, `/jobs/:jobId`) and the duplicate forgot-password handler in server/server.js call or copy the modelled handlers and are not modelled separately.
- `Consistent` and `Valid` are required of the incoming database: they hold of every reachable state (the schema's declarations, plus the one-application-per-pair rule the handlers maintain), and the `…KeepsConsistent` lemmas show that every handler keeps them.
- Logging, response headers and the `details` field of 500 bodies are not modelled.
- Client rendering beyond the employer page's buttons, tabs and NULL-status failure, navigation, session storage and the other client pages are not modelled.

=== FILE: accounts.dfy ===
/** The account handlers of server/controllers/authController.js: register,
    login, forgot-password and reset-password. bcrypt, the JWT signer, the
    random token generator and the clock are parameters: `hash(p, salt)` is
    the digest bcrypt stores, `matches(p, h)` is `bcrypt.compare`, `sign`
    turns the claims into a token. Request fields are `Option`s: `None` is a
    field missing from the body. */
module Accounts {
  import opened Common
  import opened Strings
  import opened Tables
  import opened Schema
  import opened Gates

  /** The body of `POST /api/auth/register`. */
  datatype Registration = Registration(
    username: Option<string>,
    email: Option<string>,
    password: Option<string>,
    role: Option<string>)

  /** The body of a successful register or login: the user and a token for
      the claims `{id, role}`. */
  datatype Session = Session(id: nat, username: string, email: string, role: string, token: string)

  /** The body of a successful forgot-password request. */
  datatype ResetIssued = ResetIssued(message: string, resetToken: string, resetLink: string)

  /** A reset token lives for one hour, in milliseconds. */
  const ResetLifetime: int := 3600000

  /** The client address used in reset links when CLIENT_URL is unset or empty. */
  const DefaultClientUrl: string := "http://localhost:3000"

  /** bcrypt's contract: a password matches every digest made from it. */
  ghost predicate HashesMatch(hash: (string, nat) -> Hash, matches: (string, Hash) -> bool) {
    forall p, salt :: matches(p, hash(p, salt))
  }

  /** The lowest-id user with this e-mail under the collation
      (`SELECT * FROM users WHERE email = ?`, first row). */
  function UserByEmail(db: Db, email: string): (r: Option<nat>)
    requires Valid(db.users)
    ensures r.Some? ==> r.value in db.users.rows && SameText(db.users.rows[r.value].email, email)
    ensures r.None? <==> !EmailTaken(db, email)
  {
    Find(db.users, (u: User) => SameText(u.email, email))
  }

  /** Strict mode takes the new user row: the role is a member of the ENUM
      up to letter case, and the username and e-mail fit VARCHAR(255). */
  predicate StrictModeAccepts(form: Registration)
    requires form.username.Some? && form.email.Some? && form.role.Some?
  {
    EnumValue(Roles, form.role.value).Some? && FitsColumn(form.username.value) && FitsColumn(form.email.value)
  }

  /** `register`. A taken e-mail (letter case aside) is 400 before anything
      else. A missing field (the insert of NULL into a NOT NULL column, or
      bcrypt on no password) or a row strict mode refuses makes the handler
      throw: 500. Otherwise the new user is inserted with the hashed
      password, the role stored as its ENUM member and no reset token. The
      reply echoes the request's fields, the role as the request spelled it,
      and carries a token signed for the new id and that role. */
  function Register(db: Db, form: Registration, salt: nat, hash: (string, nat) -> Hash,
                    sign: Claims -> string): (out: Outcome<Session>)
    requires Valid(db.users)
    ensures form.email.Some? && EmailTaken(db, form.email.value) ==>
              out == Outcome(Err(400, "User already exists"), db)
    ensures out.reply.Ok? <==>
              && form.username.Some? && form.email.Some? && form.password.Some? && form.role.Some?
              && !EmailTaken(db, form.email.value) && StrictModeAccepts(form)
    ensures out.reply.Err? ==> out.db == db
    ensures out.reply.Err? && out.reply.code != 400 ==> out.reply == Err(500, "Error registering user")
    ensures (form.email.None? || !EmailTaken(db, form.email.value))
            && (form.username.None? || form.email.None? || form.password.None? || form.role.None?
                || !StrictModeAccepts(form)) ==>
              out == Outcome(Err(500, "Error registering user"), db)
    ensures out.reply.Ok? ==>
      var s := out.reply.value;
      && out.reply.code == 201
      && s.id !in db.users.rows
      && s.username == form.username.value && s.email == form.email.value && s.role == form.role.value
      && s.token == sign(Claims(s.id, s.role))
      && out.db.jobs == db.jobs && out.db.apps == db.apps
      && s.id in out.db.users.rows
      && out.db.users.rows[s.id].role in Roles && SameText(out.db.users.rows[s.id].role, s.role)
      && out.db.users.rows ==
           db.users.rows[s.id := User(s.id, s.username, s.email, hash(form.password.value, salt),
                                      out.db.users.rows[s.id].role, None, None)]
  {
    if form.email.Some? && EmailTaken(db, form.email.value) then
      Outcome(Err(400, "User already exists"), db)
    else if form.username.None? || form.email.None? || form.password.None? || form.role.None?
            || !StrictModeAccepts(form) then
      Outcome(Err(500, "Error registering user"), db)
    else
      var id := db.users.nextId;
      var u := User(id, form.username.value, form.email.value, hash(form.password.value, salt),
                    EnumValue(Roles, form.role.value).value, None, None);
      var users := Insert(db.users, u);
      assert users.rows == db.users.rows[id := u];
      var role := form.role.value;
      Outcome(Ok(201, Session(id, u.username, u.email, role, sign(Claims(id, role)))),
              db.(users := users))
  }

  /** Registration keeps every constraint of the schema. */
  lemma RegisterKeepsConsistent(db: Db, form: Registration, salt: nat, hash: (string, nat) -> Hash,
                                sign: Claims -> string)
    requires Consistent(db)
    ensures Consistent(Register(db, form, salt, hash, sign).db)
  {
    var out := Register(db, form, salt, hash, sign);
    if out.reply.Ok? {
      AddUserKeepsConsistent(db, out.db.users.rows[out.reply.value.id]);
    }
  }

  /** A user with a fresh id, a role of the enum and an unused e-mail keeps
      every constraint. */
  lemma AddUserKeepsConsistent(db: Db, u: User)
    requires Consistent(db)
    requires u.id == db.users.nextId && u.role in Roles && !EmailTaken(db, u.email)
    ensures Consistent(db.(users := Insert(db.users, u)))
  {
    var after := db.(users := Insert(db.users, u));
    assert forall k :: k in db.users.rows ==> !SameText(db.users.rows[k].email, u.email);
    assert forall k :: k in db.users.rows ==> after.users.rows[k] == db.users.rows[k];
    assert UsersConsistent(after.users);
    assert JobsConsistent(after);
    assert AppsConsistent(after);
  }

  /** `login`. The e-mail is looked up under the collation, so its letter
      case does not matter. An unknown e-mail and a wrong password give the
      same 400. A
      known e-mail with no password in the body makes bcrypt throw: 500.
      Otherwise the reply is the stored user with a freshly signed token. */
  function Login(db: Db, email: Option<string>, password: Option<string>,
                 matches: (string, Hash) -> bool, sign: Claims -> string): (r: Reply<Session>)
    requires UsersConsistent(db.users)
    ensures r.Ok? <==>
              && email.Some? && password.Some?
              && exists k | k in db.users.rows ::
                   SameText(db.users.rows[k].email, email.value) && matches(password.value, db.users.rows[k].password)
    ensures r.Ok? ==>
      && r.code == 200
      && r.value.id in db.users.rows
      && var u := db.users.rows[r.value.id];
         && SameText(u.email, email.value) && matches(password.value, u.password)
         && r.value == Session(u.id, u.username, u.email, u.role, sign(Claims(u.id, u.role)))
    ensures r.Err? ==> r == Err(400, "Invalid credentials") || r == Err(500, "Error logging in")
    ensures r == Err(500, "Error logging in") <==> email.Some? && EmailTaken(db, email.value) && password.None?
  {
    if email.None? then
      Err(400, "Invalid credentials")
    else
      var found := UserByEmail(db, email.value);
      if found.None? then
        Err(400, "Invalid credentials")
      else
        var u := db.users.rows[found.value];
        if password.None? then
          Err(500, "Error logging in")
        else if !matches(password.value, u.password) then
          assert forall k | k in db.users.rows && SameText(db.users.rows[k].email, email.value) :: k == found.value;
          Err(400, "Invalid credentials")
        else
          Ok(200, Session(u.id, u.username, u.email, u.role, sign(Claims(u.id, u.role))))
  }

  /** Registering and then logging in with the same e-mail and password
      yields the registered user, signed afresh with the role as stored;
      when the request spelled the role as its ENUM member, login replies
      exactly as registration did. */
  lemma RegisterThenLogin(db: Db, form: Registration, salt: nat, hash: (string, nat) -> Hash,
                          matches: (string, Hash) -> bool, sign: Claims -> string)
    requires Consistent(db) && HashesMatch(hash, matches)
    requires Register(db, form, salt, hash, sign).reply.Ok?
    ensures var out := Register(db, form, salt, hash, sign);
            var s := out.reply.value;
            var role := out.db.users.rows[s.id].role;
            Login(out.db, form.email, form.password, matches, sign)
              == Ok(200, Session(s.id, s.username, s.email, role, sign(Claims(s.id, role))))
    ensures var out := Register(db, form, salt, hash, sign);
            form.role.value in Roles ==> Login(out.db, form.email, form.password, matches, sign) == Ok(200, out.reply.value)
  {
    var out := Register(db, form, salt, hash, sign);
    var s := out.reply.value;
    RegisterKeepsConsistent(db, form, salt, hash, sign);
    assert matches(form.password.value, hash(form.password.value, salt));
    assert SameText(out.db.users.rows[s.id].email, form.email.value);
    MembersLowerCase();
    EnumIgnoresCase(Roles, form.role.value);
  }

  /** The register token carries the role as the request spelled it, while
      the row stores its ENUM member: registering as "Employer" stores an
      employer, yet `employerOnly` refuses the token registration hands
      back, and admits the one a later login signs. */
  lemma RegisterTokenKeepsRequestCase(db: Db, form: Registration, salt: nat, hash: (string, nat) -> Hash,
                                      sign: Claims -> string)
    requires Valid(db.users) && form.role == Some("Employer")
    requires Register(db, form, salt, hash, sign).reply.Ok?
    ensures var out := Register(db, form, salt, hash, sign);
            var s := out.reply.value;
            && out.db.users.rows[s.id].role == "employer"
            && s.role == "Employer"
            && EmployerOnly(Some(Claims(s.id, s.role))) == Deny(403, "Access denied. Employers only.")
            && EmployerOnly(Some(Claims(s.id, out.db.users.rows[s.id].role))) == Next
  {
    var out := Register(db, form, salt, hash, sign);
    var stored := out.db.users.rows[out.reply.value.id].role;
    MembersLowerCase();
    assert stored in Roles && SameText(stored, "Employer");
    assert ToLower("job_seeker") != ToLower("Employer");
  }

  /** The reset link: the client address (or its default) and the token. */
  function ResetLink(clientUrl: string, token: string): (link: string)
    ensures clientUrl != "" ==> link == clientUrl + "/reset-password/" + token
    ensures clientUrl == "" ==> link == DefaultClientUrl + "/reset-password/" + token
  {
    (if clientUrl == "" then DefaultClientUrl else clientUrl) + "/reset-password/" + token
  }

  /** The user holds this token, compared under the collation, and it has
      not expired at `now` (`reset_token = ? AND reset_token_expiry > ?`). */
  predicate HoldsLiveToken(u: User, token: string, now: int) {
    u.resetToken.Some? && SameText(u.resetToken.value, token) && u.resetExpiry.Some? && u.resetExpiry.value > now
  }

  /** `forgotPassword`. An unknown or missing e-mail (looked up letter case
      aside) is 404. Otherwise the user gets `token` with an expiry one hour
      after `now`, and the reply hands the token back together with the
      reset link. */
  function ForgotPassword(db: Db, email: Option<string>, token: string, now: int, clientUrl: string)
    : (out: Outcome<ResetIssued>)
    requires Valid(db.users)
    ensures out.reply.Ok? <==> email.Some? && EmailTaken(db, email.value)
    ensures out.reply.Err? ==> out == Outcome(Err(404, "User not found"), db)
    ensures out.reply.Ok? ==>
      && out.reply == Ok(200, ResetIssued("Password reset token generated", token, ResetLink(clientUrl, token)))
      && out.db.jobs == db.jobs && out.db.apps == db.apps
      && (exists k | k in db.users.rows && SameText(db.users.rows[k].email, email.value) ::
            out.db.users.rows == db.users.rows[k := db.users.rows[k].(resetToken := Some(token),
                                                                     resetExpiry := Some(now + ResetLifetime))])
  {
    if email.None? then
      Outcome(Err(404, "User not found"), db)
    else
      var found := UserByEmail(db, email.value);
      if found.None? then
        Outcome(Err(404, "User not found"), db)
      else
        var k := found.value;
        var u := db.users.rows[k].(resetToken := Some(token), resetExpiry := Some(now + ResetLifetime));
        var users := Put(db.users, k, u);
        assert users.rows == db.users.rows[k := u];
        Outcome(Ok(200, ResetIssued("Password reset token generated", token, ResetLink(clientUrl, token))),
                db.(users := users))
  }

  /** Issuing a reset token keeps every constraint of the schema. */
  lemma ForgotKeepsConsistent(db: Db, email: Option<string>, token: string, now: int, clientUrl: string)
    requires Consistent(db)
    ensures Consistent(ForgotPassword(db, email, token, now, clientUrl).db)
  {
    if email.Some? && EmailTaken(db, email.value) {
      var k := UserByEmail(db, email.value).value;
      ChangeUserKeepsConsistent(db, k, db.users.rows[k].(resetToken := Some(token),
                                                          resetExpiry := Some(now + ResetLifetime)));
    }
  }

  /** Rewriting a user's password or reset fields keeps every constraint. */
  lemma ChangeUserKeepsConsistent(db: Db, k: nat, u: User)
    requires Consistent(db) && k in db.users.rows
    requires u.id == k && u.email == db.users.rows[k].email && u.role == db.users.rows[k].role
    ensures Consistent(db.(users := Put(db.users, k, u)))
  {
    var after := db.(users := Put(db.users, k, u));
    assert forall j :: j in after.users.rows ==> after.users.rows[j].email == db.users.rows[j].email;
    assert UsersConsistent(after.users);
    assert JobsConsistent(after);
    assert AppsConsistent(after);
  }

  /** `resetPassword`. No user holding the token unexpired (a missing token
      matches nobody) is 400. A missing new password makes bcrypt throw: 500.
      Otherwise the lowest-id holder gets the new digest and its reset token
      and expiry are cleared; nothing else changes. */
  function ResetPassword(db: Db, token: Option<string>, newPassword: Option<string>, now: int,
                         salt: nat, hash: (string, nat) -> Hash): (out: Outcome<string>)
    requires Valid(db.users)
    ensures (token.None? || forall k :: k in db.users.rows ==> !HoldsLiveToken(db.users.rows[k], token.value, now))
            <==> out == Outcome(Err(400, "Invalid or expired reset token"), db)
    ensures out.reply.Ok? <==>
              newPassword.Some? && token.Some?
              && exists k :: k in db.users.rows && HoldsLiveToken(db.users.rows[k], token.value, now)
    ensures out.reply.Err? ==> out.db == db
    ensures out.reply.Err? && out.reply.code != 400 ==> out.reply == Err(500, "Error resetting password")
    ensures token.Some? && (exists k :: k in db.users.rows && HoldsLiveToken(db.users.rows[k], token.value, now))
            && newPassword.None? ==>
              out == Outcome(Err(500, "Error resetting password"), db)
    ensures out.reply.Ok? ==>
      && out.reply == Ok(200, "Password reset successfully")
      && out.db.jobs == db.jobs && out.db.apps == db.apps
      && (exists k | k in db.users.rows && HoldsLiveToken(db.users.rows[k], token.value, now) ::
            && (forall j :: j in db.users.rows && j < k ==> !HoldsLiveToken(db.users.rows[j], token.value, now))
            && out.db.users.rows == db.users.rows[k := db.users.rows[k].(password := hash(newPassword.value, salt),
                                                                         resetToken := None, resetExpiry := None)])
  {
    if token.None? then
      Outcome(Err(400, "Invalid or expired reset token"), db)
    else
      var found := Find(db.users, (u: User) => HoldsLiveToken(u, token.value, now));
      if found.None? then
        Outcome(Err(400, "Invalid or expired reset token"), db)
      else if newPassword.None? then
        Outcome(Err(500, "Error resetting password"), db)
      else
        var k := found.value;
        var u := db.users.rows[k].(password := hash(newPassword.value, salt), resetToken := None, resetExpiry := None);
        var users := Put(db.users, k, u);
        assert users.rows == db.users.rows[k := u];
        Outcome(Ok(200, "Password reset successfully"), db.(users := users))
  }

  /** A password reset keeps every constraint of the schema. */
  lemma ResetKeepsConsistent(db: Db, token: Option<string>, newPassword: Option<string>, now: int,
                             salt: nat, hash: (string, nat) -> Hash)
    requires Consistent(db)
    ensures Consistent(ResetPassword(db, token, newPassword, now, salt, hash).db)
  {
    if token.Some? && newPassword.Some? {
      var found := Find(db.users, (u: User) => HoldsLiveToken(u, token.value, now));
      if found.Some? {
        var k := found.value;
        ChangeUserKeepsConsistent(db, k, db.users.rows[k].(password := hash(newPassword.value, salt),
                                                            resetToken := None, resetExpiry := None));
      }
    }
  }

  /** Nobody but user `k` holds `token`, letter case aside. */
  predicate SoleHolder(db: Db, k: nat, token: string) {
    forall j :: j in db.users.rows && j != k ==>
      !(db.users.rows[j].resetToken.Some? && SameText(db.users.rows[j].resetToken.value, token))
  }

  /** A token issued by forgot-password resets the password of the user it
      was issued to while the hour lasts, provided no other user holds the
      same token; once the hour is over it is refused. */
  lemma ForgotThenReset(db: Db, email: string, token: string, issued: int, clientUrl: string,
                        newPassword: string, later: int, salt: nat, hash: (string, nat) -> Hash)
    requires Valid(db.users) && EmailTaken(db, email)
    requires var k := UserByEmail(db, email).value; SoleHolder(db, k, token)
    ensures var k := UserByEmail(db, email).value;
            var db' := ForgotPassword(db, Some(email), token, issued, clientUrl).db;
            var out := ResetPassword(db', Some(token), Some(newPassword), later, salt, hash);
            && (later < issued + ResetLifetime ==>
                  && out.reply.Ok?
                  && out.db.users.rows[k].password == hash(newPassword, salt)
                  && out.db.users.rows[k].resetToken.None?)
            && (later >= issued + ResetLifetime ==> out.reply == Err(400, "Invalid or expired reset token"))
  {
    var k := UserByEmail(db, email).value;
    var db' := ForgotPassword(db, Some(email), token, issued, clientUrl).db;
    assert db'.users.rows[k] == db.users.rows[k].(resetToken := Some(token), resetExpiry := Some(issued + ResetLifetime));
    assert forall j :: j in db'.users.rows && j != k ==> !HoldsLiveToken(db'.users.rows[j], token, later) by {
      forall j | j in db'.users.rows && j != k ensures !HoldsLiveToken(db'.users.rows[j], token, later) {
        assert db'.users.rows[j] == db.users.rows[j];
      }
    }
    if later < issued + ResetLifetime {
      OnlyHolderResets(db', k, token, newPassword, later, salt, hash);
    } else {
      assert forall j :: j in db'.users.rows ==> !HoldsLiveToken(db'.users.rows[j], token, later);
    }
  }

  /** When user `k` is the only live holder of the token, a reset with it
      rewrites user `k`'s password and clears its token. */
  lemma OnlyHolderResets(db: Db, k: nat, token: string, newPassword: string, now: int,
                         salt: nat, hash: (string, nat) -> Hash)
    requires Valid(db.users) && k in db.users.rows && HoldsLiveToken(db.users.rows[k], token, now)
    requires forall j :: j in db.users.rows && j != k ==> !HoldsLiveToken(db.users.rows[j], token, now)
    ensures var out := ResetPassword(db, Some(token), Some(newPassword), now, salt, hash);
            && out.reply.Ok?
            && out.db.users.rows[k].password == hash(newPassword, salt)
            && out.db.users.rows[k].resetToken.None?
  {
    var out := ResetPassword(db, Some(token), Some(newPassword), now, salt, hash);
    var j :| j in db.users.rows && HoldsLiveToken(db.users.rows[j], token, now)
             && out.db.users.rows == db.users.rows[j := db.users.rows[j].(password := hash(newPassword, salt),
                                                                        resetToken := None, resetExpiry := None)];
    assert j == k;
  }


  /** A token works once: after a successful reset with it, a second reset
      with it at any time is refused, provided one user held it. */
  lemma ResetSingleUse(db: Db, k: nat, token: string, first: string, second: string,
                       now: int, later: int, salt: nat, salt': nat, hash: (string, nat) -> Hash)
    requires Valid(db.users) && k in db.users.rows && SoleHolder(db, k, token)
    requires ResetPassword(db, Some(token), Some(first), now, salt, hash).reply.Ok?
    ensures var db' := ResetPassword(db, Some(token), Some(first), now, salt, hash).db;
            ResetPassword(db', Some(token), Some(second), later, salt', hash).reply
              == Err(400, "Invalid or expired reset token")
  {
    var out := ResetPassword(db, Some(token), Some(first), now, salt, hash);
    var j :| j in db.users.rows && HoldsLiveToken(db.users.rows[j], token, now)
             && out.db.users.rows == db.users.rows[j := db.users.rows[j].(password := hash(first, salt),
                                                                          resetToken := None, resetExpiry := None)];
    assert j == k;
    assert forall i :: i in out.db.users.rows ==> !HoldsLiveToken(out.db.users.rows[i], token, later);
  }

  /** The token is compared under the collation: the upper-cased form of an
      issued token resets the password just as the token itself does. */
  lemma ResetIgnoresTokenCase(db: Db, token: string, newPassword: Option<string>, now: int,
                              salt: nat, hash: (string, nat) -> Hash)
    requires Valid(db.users)
    ensures ResetPassword(db, Some(token), newPassword, now, salt, hash)
              == ResetPassword(db, Some(ToLower(token)), newPassword, now, salt, hash)
  {
    ToLowerIdempotent(token);
    FindAgrees(db.users, (u: User) => HoldsLiveToken(u, token, now),
               (u: User) => HoldsLiveToken(u, ToLower(token), now));
  }
}

=== FILE: applications.dfy ===
/** The application handlers of server/controllers/applicationController.js.
    The caller is the `req.user` an earlier gate established; the current
    time stands for the `created_at` default. */
module Applications {
  import opened Common
  import opened Strings
  import opened Tables
  import opened Listing
  import opened Schema
  import Validation

  /** The row survives the listing queries' inner joins with its job and
      its applicant. */
  predicate Joined(db: Db, a: Application) {
    a.jobId in db.jobs.rows && a.applicantId in db.users.rows
  }

  /** `createApplication`. A missing job is 404 and a second application for
      the same job by the same user is 400, both before anything is written.
      A missing cover letter (the column is NOT NULL) or a caller whose user
      row is gone (the foreign key) makes the insert throw: 500. Otherwise
      one pending application is added. No role is checked: any
      authenticated user may apply. */
  function CreateApplication(db: Db, caller: Claims, jobId: nat, coverLetter: Option<string>, now: int)
    : (out: Outcome<Application>)
    requires Valid(db.apps)
    ensures jobId !in db.jobs.rows ==> out == Outcome(Err(404, "Job not found"), db)
    ensures jobId in db.jobs.rows && HasApplied(db, jobId, caller.id) ==>
              out == Outcome(Err(400, "You have already applied for this job"), db)
    ensures out.reply.Ok? <==>
              jobId in db.jobs.rows && !HasApplied(db, jobId, caller.id)
              && coverLetter.Some? && caller.id in db.users.rows
    ensures out.reply.Err? ==> out.db == db
    ensures out.reply.Err? && out.reply.code == 500 ==> out.reply.error == "Error creating application"
    ensures jobId in db.jobs.rows && !HasApplied(db, jobId, caller.id)
            && (coverLetter.None? || caller.id !in db.users.rows) ==>
              out == Outcome(Err(500, "Error creating application"), db)
    ensures out.reply.Ok? ==>
      var a := out.reply.value;
      && out.reply.code == 201
      && a.id !in db.apps.rows
      && out.db.apps.rows == db.apps.rows[a.id := a]
      && a.jobId == jobId && a.applicantId == caller.id
      && a.coverLetter == coverLetter.value && a.status == Some(DefaultStatus) && a.createdAt == now
      && out.db.users == db.users && out.db.jobs == db.jobs
      && HasApplied(out.db, jobId, caller.id)
  {
    if jobId !in db.jobs.rows then
      Outcome(Err(404, "Job not found"), db)
    else if HasApplied(db, jobId, caller.id) then
      Outcome(Err(400, "You have already applied for this job"), db)
    else if coverLetter.None? || caller.id !in db.users.rows then
      Outcome(Err(500, "Error creating application"), db)
    else
      var a := Application(db.apps.nextId, jobId, caller.id, coverLetter.value, Some(DefaultStatus), now);
      var apps := Insert(db.apps, a);
      assert apps.rows == db.apps.rows[a.id := a];
      assert apps.rows[a.id].jobId == jobId && apps.rows[a.id].applicantId == caller.id;
      Outcome(Ok(201, a), db.(apps := apps))
  }

  /** `createApplication` keeps the invariant. In particular there is never
      more than one application per (job, applicant): the table has no key
      for it, and the check before the insert is what keeps it. */
  lemma CreateApplicationKeepsConsistent(db: Db, caller: Claims, jobId: nat, coverLetter: Option<string>, now: int)
    requires Consistent(db)
    ensures Consistent(CreateApplication(db, caller, jobId, coverLetter, now).db)
    ensures OneApplicationPerPair(CreateApplication(db, caller, jobId, coverLetter, now).db.apps)
  {
    var out := CreateApplication(db, caller, jobId, coverLetter, now);
    if out.reply.Ok? {
      AddApplicationKeepsConsistent(db, out.reply.value);
    }
  }

  /** A new application for a pair that has none keeps the invariant, in
      particular one application per (job, applicant). */
  lemma AddApplicationKeepsConsistent(db: Db, a: Application)
    requires Consistent(db)
    requires a.id == db.apps.nextId && a.status == Some(DefaultStatus) && Joined(db, a)
    requires !HasApplied(db, a.jobId, a.applicantId)
    ensures Consistent(db.(apps := Insert(db.apps, a)))
  {
    var after := db.(apps := Insert(db.apps, a));
    assert AppsConsistent(after);
    PairsAfterInsert(db.apps, a);
  }

  /** Inserting an application for a pair that has none keeps the pairs
      unique. */
  lemma PairsAfterInsert(apps: Table<Application>, a: Application)
    requires Valid(apps) && OneApplicationPerPair(apps)
    requires forall k :: k in apps.rows ==> !(apps.rows[k].jobId == a.jobId && apps.rows[k].applicantId == a.applicantId)
    ensures OneApplicationPerPair(Insert(apps, a))
  {
    var rows := Insert(apps, a).rows;
    forall k, k' | (&& k in rows && k' in rows
                    && rows[k].jobId == rows[k'].jobId && rows[k].applicantId == rows[k'].applicantId)
      ensures k == k'
    {
      assert k != apps.nextId ==> k in apps.rows && rows[k] == apps.rows[k];
      assert k' != apps.nextId ==> k' in apps.rows && rows[k'] == apps.rows[k'];
    }
  }

  /** Applying twice: the first attempt that succeeds makes every later
      attempt for the same job by the same user a 400. */
  lemma ApplyOnlyOnce(db: Db, caller: Claims, jobId: nat, first: Option<string>, second: Option<string>,
                      now: int, later: int)
    requires Valid(db.apps)
    requires CreateApplication(db, caller, jobId, first, now).reply.Ok?
    ensures var db' := CreateApplication(db, caller, jobId, first, now).db;
            CreateApplication(db', caller, jobId, second, later).reply
              == Err(400, "You have already applied for this job")
  {
  }

  /** `getUserApplications`: the caller's own applications, newest first. */
  method GetUserApplications(db: Db, caller: Claims) returns (apps: seq<Application>)
    ensures forall a :: a in apps <==> a in db.apps.rows.Values && a.applicantId == caller.id && Joined(db, a)
    ensures NoDup(apps)
    ensures NewestFirst(apps, AppCreated)
  {
    var mine := (a: Application) => a.applicantId == caller.id && Joined(db, a);
    apps := SelectNewestFirst(db.apps.rows.Values, mine, AppCreated);
    ghost var selected := set a | a in db.apps.rows.Values && a.applicantId == caller.id && Joined(db, a);
    assert (set a | a in db.apps.rows.Values && mine(a)) == selected;
    ListsExactly(apps, selected);
  }

  /** `getJobApplications`: for a job the caller owns, its applications
      newest first; for any other job id, 404. */
  method GetJobApplications(db: Db, caller: Claims, jobId: nat) returns (r: Reply<seq<Application>>)
    ensures !Owns(db, caller.id, jobId) <==> r.Err?
    ensures r.Err? ==> r == Err(404, "Job not found or unauthorized")
    ensures r.Ok? ==> r.code == 200
    ensures r.Ok? ==> forall a :: a in r.value <==> a in db.apps.rows.Values && a.jobId == jobId && Joined(db, a)
    ensures r.Ok? ==> NoDup(r.value) && NewestFirst(r.value, AppCreated)
  {
    if !Owns(db, caller.id, jobId) {
      return Err(404, "Job not found or unauthorized");
    }
    var forJob := (a: Application) => a.jobId == jobId && Joined(db, a);
    var apps := SelectNewestFirst(db.apps.rows.Values, forJob, AppCreated);
    ghost var selected := set a | a in db.apps.rows.Values && a.jobId == jobId && Joined(db, a);
    assert (set a | a in db.apps.rows.Values && forJob(a)) == selected;
    ListsExactly(apps, selected);
    r := Ok(200, apps);
  }

  /** The server never calls `validateApplication`: a caller who may apply
      gets the application stored whatever the cover letter says, so a
      letter the validator refuses, such as "x", is stored too. */
  lemma CoverLetterNotValidated(db: Db, caller: Claims, jobId: nat, coverLetter: string, now: int)
    requires Valid(db.apps)
    requires jobId in db.jobs.rows && !HasApplied(db, jobId, caller.id) && caller.id in db.users.rows
    ensures CreateApplication(db, caller, jobId, Some(coverLetter), now).reply.Ok?
    ensures Validation.ValidateApplication("x") == [Validation.CoverLetterMessage]
              && CreateApplication(db, caller, jobId, Some("x"), now).reply.Ok?
  {
  }

  /** The application is for one of `employer`'s jobs. */
  predicate ForEmployer(db: Db, employer: nat, a: Application) {
    Owns(db, employer, a.jobId)
  }

  /** `getEmployerApplications`: the applications to any of the caller's
      jobs, newest first. */
  method GetEmployerApplications(db: Db, caller: Claims) returns (apps: seq<Application>)
    ensures forall a :: a in apps <==> a in db.apps.rows.Values && ForEmployer(db, caller.id, a) && Joined(db, a)
    ensures NoDup(apps)
    ensures NewestFirst(apps, AppCreated)
  {
    var theirs := (a: Application) => ForEmployer(db, caller.id, a) && Joined(db, a);
    apps := SelectNewestFirst(db.apps.rows.Values, theirs, AppCreated);
    ghost var selected := set a | a in db.apps.rows.Values && ForEmployer(db, caller.id, a) && Joined(db, a);
    assert (set a | a in db.apps.rows.Values && theirs(a)) == selected;
    ListsExactly(apps, selected);
  }

  /** The status the column stores for a request's `status`: NULL for an
      absent one, otherwise the ENUM member it names up to letter case, or
      `None` when it names none and strict mode refuses the update. */
  function StoredStatus(status: Option<string>): (stored: Option<Option<string>>)
    ensures stored.Some? ==> StatusAllowed(stored.value)
    ensures stored.Some? ==> (stored.value.None? <==> status.None?)
    ensures stored.Some? && status.Some? ==> SameText(stored.value.value, status.value)
    ensures stored.None? <==> status.Some? && !(exists v | v in StatusValues :: SameText(v, status.value))
  {
    MembersLowerCase();
    if status.None? then Some(None)
    else match EnumValue(StatusValues, status.value)
      case None => None
      case Some(v) => Some(Some(v))
  }

  /** `updateApplicationStatus`. An application that is missing, or whose job
      is, is 404; one for another employer's job is 403. The new status is
      written whatever the current one is: there is no transition rule. An
      absent status stores NULL; a status naming a member of the enum in
      any letter case stores that member; any other value makes the update
      throw: 500. Only that row's status changes, and the reply is the row
      as stored. */
  function UpdateApplicationStatus(db: Db, caller: Claims, appId: nat, status: Option<string>)
    : (out: Outcome<Application>)
    requires Valid(db.apps)
    ensures appId !in db.apps.rows || db.apps.rows[appId].jobId !in db.jobs.rows ==>
              out == Outcome(Err(404, "Application not found"), db)
    ensures appId in db.apps.rows && db.apps.rows[appId].jobId in db.jobs.rows
            && !ForEmployer(db, caller.id, db.apps.rows[appId]) ==>
              out == Outcome(Err(403, "Unauthorized"), db)
    ensures out.reply.Ok? <==>
              appId in db.apps.rows && ForEmployer(db, caller.id, db.apps.rows[appId]) && StoredStatus(status).Some?
    ensures out.reply.Err? ==> out.db == db
    ensures out.reply.Err? && out.reply.code == 500 ==> out.reply.error == "Error updating application status"
    ensures appId in db.apps.rows && ForEmployer(db, caller.id, db.apps.rows[appId]) && StoredStatus(status).None? ==>
              out == Outcome(Err(500, "Error updating application status"), db)
    ensures out.reply.Ok? ==>
      && out.reply.code == 200
      && out.reply.value == db.apps.rows[appId].(status := StoredStatus(status).value)
      && out.db.apps.rows == db.apps.rows[appId := out.reply.value]
      && out.db.users == db.users && out.db.jobs == db.jobs
  {
    if appId !in db.apps.rows || db.apps.rows[appId].jobId !in db.jobs.rows then
      Outcome(Err(404, "Application not found"), db)
    else if db.jobs.rows[db.apps.rows[appId].jobId].employerId != caller.id then
      Outcome(Err(403, "Unauthorized"), db)
    else if StoredStatus(status).None? then
      Outcome(Err(500, "Error updating application status"), db)
    else
      var a := db.apps.rows[appId].(status := StoredStatus(status).value);
      var apps := Put(db.apps, appId, a);
      assert apps.rows == db.apps.rows[appId := a];
      Outcome(Ok(200, a), db.(apps := apps))
  }

  /** The owner may move an application between any two statuses of the
      enum, in either direction, e.g. from accepted back to pending. */
  lemma AnyTransitionAccepted(db: Db, caller: Claims, appId: nat, status: string)
    requires Valid(db.apps)
    requires appId in db.apps.rows && ForEmployer(db, caller.id, db.apps.rows[appId])
    requires status in StatusValues
    ensures var out := UpdateApplicationStatus(db, caller, appId, Some(status));
            out.reply.Ok? && out.db.apps.rows[appId].status == Some(status)
  {
    MembersLowerCase();
    EnumIgnoresCase(StatusValues, status);
  }

  /** Letter case in the status makes no difference: "Accepted" stores
      'accepted', exactly as "accepted" does. */
  lemma UpdateIgnoresStatusCase(db: Db, caller: Claims, appId: nat, status: string)
    requires Valid(db.apps)
    ensures UpdateApplicationStatus(db, caller, appId, Some(status))
              == UpdateApplicationStatus(db, caller, appId, Some(ToLower(status)))
  {
    MembersLowerCase();
    EnumIgnoresCase(StatusValues, status);
  }

  /** An update changes no application's job, applicant, cover letter or
      date, so the set of (job, applicant) pairs with an application is the
      same before and after. */
  lemma UpdateKeepsApplied(db: Db, caller: Claims, appId: nat, status: Option<string>, jobId: nat, applicant: nat)
    requires Valid(db.apps)
    ensures var out := UpdateApplicationStatus(db, caller, appId, status);
            HasApplied(out.db, jobId, applicant) <==> HasApplied(db, jobId, applicant)
  {
    var out := UpdateApplicationStatus(db, caller, appId, status);
    if out.reply.Ok? {
      assert out.db.apps.rows.Keys == db.apps.rows.Keys;
      forall k | k in db.apps.rows
        ensures out.db.apps.rows[k].jobId == db.apps.rows[k].jobId
        ensures out.db.apps.rows[k].applicantId == db.apps.rows[k].applicantId
      {
      }
    }
  }

  /** A status update keeps every constraint: it writes a status the
      column accepts and touches no job or applicant reference. */
  lemma UpdateStatusKeepsConsistent(db: Db, caller: Claims, appId: nat, status: Option<string>)
    requires Consistent(db)
    ensures Consistent(UpdateApplicationStatus(db, caller, appId, status).db)
  {
    var out := UpdateApplicationStatus(db, caller, appId, status);
    if out.reply.Ok? {
      StatusWriteKeepsConsistent(db, appId, StoredStatus(status).value);
    }
  }

  /** Writing an allowed status into an existing application keeps every
      constraint. */
  lemma StatusWriteKeepsConsistent(db: Db, appId: nat, status: Option<string>)
    requires Consistent(db) && appId in db.apps.rows && StatusAllowed(status)
    ensures Consistent(db.(apps := Put(db.apps, appId, db.apps.rows[appId].(status := status))))
  {
    var apps := Put(db.apps, appId, db.apps.rows[appId].(status := status));
    forall k | k in apps.rows
      ensures && apps.rows[k].id == k && StatusAllowed(apps.rows[k].status)
              && apps.rows[k].jobId == db.apps.rows[k].jobId
              && apps.rows[k].applicantId == db.apps.rows[k].applicantId
    {
      if k != appId { assert apps.rows[k] == db.apps.rows[k]; }
    }
    SamePairsKeepUnique(db.apps, apps);
  }

  /** Rewriting rows without touching their job or applicant keeps the pairs
      unique. */
  lemma SamePairsKeepUnique(apps: Table<Application>, apps': Table<Application>)
    requires OneApplicationPerPair(apps) && apps'.rows.Keys == apps.rows.Keys
    requires forall k :: k in apps.rows ==>
               apps'.rows[k].jobId == apps.rows[k].jobId && apps'.rows[k].applicantId == apps.rows[k].applicantId
    ensures OneApplicationPerPair(apps')
  {
  }
}

=== FILE: common.dfy ===
/** Small shared vocabulary: an optional value, duplicate-freedom and an
    order-preserving filter over sequences. */
module Common {

  /** A value that may be absent (a JavaScript `undefined` / SQL `NULL`). */
  datatype Option<+T> = None | Some(value: T)

  /** No element occurs twice. */
  ghost predicate NoDup<T>(s: seq<T>) {
    forall i, j :: 0 <= i < j < |s| ==> s[i] != s[j]
  }

  /** `Array.prototype.filter`: the elements satisfying `p`, in their original order. */
  function Filter<T(!new)>(s: seq<T>, p: T -> bool): (r: seq<T>)
    ensures |r| <= |s|
    ensures forall x :: x in r <==> x in s && p(x)
  {
    if |s| == 0 then []
    else if p(s[0]) then [s[0]] + Filter(s[1..], p)
    else Filter(s[1..], p)
  }

  /** Filtering a concatenation filters each part: together with the
      one-element case this pins down that `Filter` keeps the original order. */
  lemma {:induction false} FilterConcat<T(!new)>(a: seq<T>, b: seq<T>, p: T -> bool)
    ensures Filter(a + b, p) == Filter(a, p) + Filter(b, p)
  {
    if |a| == 0 {
      assert a + b == b;
    } else {
      assert (a + b)[1..] == a[1..] + b;
      FilterConcat(a[1..], b, p);
    }
  }

  /** A one-element sequence is kept exactly when its element satisfies `p`. */
  lemma FilterSingle<T(!new)>(x: T, p: T -> bool)
    ensures Filter([x], p) == if p(x) then [x] else []
  {
    assert [x][1..] == [];
  }

  /** A sequence without members is empty. */
  lemma NoMemberEmpty<T>(s: seq<T>)
    ensures (forall x :: x !in s) ==> s == []
  {
    assert |s| > 0 ==> s[0] in s;
  }
}

=== FILE: employer_auth.dfy ===
/** server/middleware/employerAuth.js: a second employer gate, exported but
    mounted on no route. It expects `req.user` from `auth`. */
module EmployerAuth {
  import opened Common
  import opened Schema
  import opened Gates

  /** `employerAuth`: 401 without a user (checked first), 403 for a role
      other than employer, `next` otherwise. */
  function EmployerAuth(user: Option<Claims>): (g: Gate)
    ensures user.None? <==> g == Deny(401, "Authentication required")
    ensures user.Some? && user.value.role != "employer" <==>
              g == Deny(403, "Access denied. Only employers can perform this action.")
    ensures g == Next <==> user.Some? && user.value.role == "employer"
  {
    if user.None? then Deny(401, "Authentication required")
    else if user.value.role != "employer" then Deny(403, "Access denied. Only employers can perform this action.")
    else Next
  }

  /** `employerAuth` lets through exactly the requests `employerOnly` lets
      through; they differ only in how a missing user is answered (401
      here, 403 there) and in the wording of the role refusal. */
  lemma SameDecisionAsEmployerOnly(user: Option<Claims>)
    ensures EmployerAuth(user) == Next <==> EmployerOnly(user) == Next
    ensures user.None? ==> EmployerAuth(user).code == 401 && EmployerOnly(user).code == 403
    ensures user.Some? && user.value.role != "employer" ==>
              EmployerAuth(user).code == EmployerOnly(user).code == 403
              && EmployerAuth(user).error != EmployerOnly(user).error
  {
  }
}

=== FILE: employer_view.dfy ===
/** The employer's applications page, client/src/pages/EmployerApplications.js:
    the status buttons offered on each card, the status tabs, the local
    list update after a status change, and the status colours. The list
    holds the application rows the server sent. */
module EmployerView {
  import opened Common
  import opened Tables
  import opened Schema
  import opened Applications
  import opened Gates

  /** The tabs, in order; tab 0 shows everything. */
  const Statuses: seq<string> := ["all", "pending", "reviewing", "interview", "accepted", "rejected"]

  /** The status changes a card offers, in button order: "Mark as
      Reviewing" on a pending card, "Schedule Interview" on a reviewing
      one, then Accept and Reject on every card not already accepted or
      rejected. This is what the buttons' conditions compute; a card whose
      status is NULL never reaches them, as `TabRenders` says. */
  function Actions(status: Option<string>): (offered: seq<string>)
    ensures status == Some("pending") ==> offered == ["reviewing", "accepted", "rejected"]
    ensures status == Some("reviewing") ==> offered == ["interview", "accepted", "rejected"]
    ensures status == Some("accepted") || status == Some("rejected") ==> offered == []
    ensures status !in {Some("pending"), Some("reviewing"), Some("accepted"), Some("rejected")} ==>
              offered == ["accepted", "rejected"]
  {
    var first := if status == Some("pending") then ["reviewing"]
                 else if status == Some("reviewing") then ["interview"]
                 else [];
    var closing := if status == Some("accepted") || status == Some("rejected") then []
                   else ["accepted", "rejected"];
    first + closing
  }

  /** The cards of tab `tab`: all of them on tab 0, otherwise those whose
      status is the tab's, in list order. A tab index past the last tab
      matches no status. */
  function TabFilter(view: seq<Application>, tab: nat): (shown: seq<Application>)
    ensures tab == 0 ==> shown == view
    ensures 0 < tab < |Statuses| ==> forall a :: a in shown <==> a in view && a.status == Some(Statuses[tab])
    ensures tab >= |Statuses| ==> shown == []
    ensures |shown| <= |view|
  {
    if tab == 0 then view
    else
      var shown := Filter(view, OnTab(tab));
      NoMemberEmpty(shown);
      shown
  }

  /** The test `app.status === statuses[tabValue]`; an index past the last
      tab reads `undefined`, which no status equals. */
  function OnTab(tab: nat): Application -> bool {
    (a: Application) => tab < |Statuses| && a.status == Some(Statuses[tab])
  }

  /** Tabs keep the list order: the cards of a list split in two are the
      cards of the first part followed by those of the second, and a single
      card is shown exactly when its status is the tab's. */
  lemma TabFilterKeepsOrder(front: seq<Application>, back: seq<Application>, tab: nat)
    ensures TabFilter(front + back, tab) == TabFilter(front, tab) + TabFilter(back, tab)
    ensures forall a: Application :: TabFilter([a], tab) ==
              if tab == 0 || (tab < |Statuses| && a.status == Some(Statuses[tab])) then [a] else []
  {
    if tab != 0 {
      FilterConcat(front, back, OnTab(tab));
      forall a: Application
        ensures TabFilter([a], tab) == if tab < |Statuses| && a.status == Some(Statuses[tab]) then [a] else []
      {
        FilterSingle(a, OnTab(tab));
      }
    }
  }

  /** The cards of the current tab render only when each has a string
      status: the chip label above the buttons calls `charAt` on the status,
      which throws on NULL, and nothing catches the throw. */
  predicate TabRenders(view: seq<Application>, tab: nat) {
    forall a :: a in TabFilter(view, tab) ==> a.status.Some?
  }

  /** Only the first tab can fail to render: every other tab shows only
      cards whose status equals the tab's, never a NULL one, and the first
      tab fails exactly when some card's status is NULL. */
  lemma OnlyFirstTabBreaks(view: seq<Application>, tab: nat)
    ensures tab != 0 ==> TabRenders(view, tab)
    ensures !TabRenders(view, 0) <==> exists a :: a in view && a.status.None?
  {
  }

  /** The server lets the owner store NULL (a PUT with no status); a list
      fetched afterwards no longer renders on the first tab. */
  lemma NullStatusBreaksPage(view: seq<Application>, db: Db, caller: Claims, id: nat)
    requires Valid(db.apps) && id in db.apps.rows && ForEmployer(db, caller.id, db.apps.rows[id])
    requires Mirrors(view, UpdateApplicationStatus(db, caller, id, None).db.apps.rows)
    requires exists i :: 0 <= i < |view| && view[i].id == id
    ensures !TabRenders(view, 0)
  {
    var i :| 0 <= i < |view| && view[i].id == id;
    assert view[i] in TabFilter(view, 0);
  }

  /** `handleUpdateStatus` once the PUT has settled: when it succeeded,
      every card with that id gets the new status; when it failed, the
      list is left as it was. */
  function AfterUpdate(view: seq<Application>, id: nat, newStatus: string, putOk: bool): (r: seq<Application>)
    ensures |r| == |view|
    ensures !putOk ==> r == view
    ensures forall i :: 0 <= i < |view| && view[i].id != id ==> r[i] == view[i]
    ensures putOk ==> forall i :: 0 <= i < |view| && view[i].id == id ==> r[i] == view[i].(status := Some(newStatus))
  {
    if |view| == 0 then []
    else
      var head := if putOk && view[0].id == id then view[0].(status := Some(newStatus)) else view[0];
      [head] + AfterUpdate(view[1..], id, newStatus, putOk)
  }

  /** `getStatusColor`: total, and "default" for pending, NULL and every
      status it does not know. */
  function StatusColor(status: Option<string>): (color: string)
    ensures color in {"default", "primary", "info", "success", "error"}
    ensures color == "default" <==>
              status !in {Some("reviewing"), Some("interview"), Some("accepted"), Some("rejected")}
  {
    match status
    case Some("reviewing") => "primary"
    case Some("interview") => "info"
    case Some("accepted") => "success"
    case Some("rejected") => "error"
    case _ => "default"
  }

  /** Over a consistent store no card is coloured "primary" or "info": those
      colours belong to statuses the enum does not have, so the page only
      ever shows the default, success and error colours. */
  lemma StoreColours(view: seq<Application>, db: Db)
    requires Consistent(db) && Mirrors(view, db.apps.rows)
    ensures forall i :: 0 <= i < |view| ==> StatusColor(view[i].status) in {"default", "success", "error"}
  {
    forall i | 0 <= i < |view| ensures StatusColor(view[i].status) in {"default", "success", "error"} {
      assert StatusAllowed(db.apps.rows[view[i].id].status);
    }
  }

  /** The page itself sends anyone who is not a logged-in employer to /login. */
  predicate PageAdmits(user: Option<Claims>) {
    user.Some? && user.value.role == "employer"
  }

  /** The page admits exactly the users the server's `employerOnly` gate
      lets through. */
  lemma PageMatchesServerGate(user: Option<Claims>)
    ensures PageAdmits(user) <==> EmployerOnly(user) == Next
    ensures !PageAdmits(user) ==> EmployerOnly(user).Deny? && EmployerOnly(user).code == 403
  {
  }

  /** Every card shows the status its row has in the store. */
  ghost predicate Mirrors(view: seq<Application>, rows: map<nat, Application>) {
    forall i :: 0 <= i < |view| ==> view[i].id in rows && view[i].status == rows[view[i].id].status
  }

  /** The statuses the page's buttons send (see `OfferedAreKnown`); all are
      written in lower case. */
  const ButtonStatuses: set<string> := {"reviewing", "interview", "accepted", "rejected"}

  /** Any status change through the page's buttons keeps the list in step
      with the store, whether the server takes the new status or refuses
      it: the list is changed only when the PUT succeeds, and then exactly
      as the row was. */
  lemma ViewMirrorsStore(view: seq<Application>, db: Db, caller: Claims, id: nat, action: string)
    requires Valid(db.apps) && Mirrors(view, db.apps.rows)
    requires action in ButtonStatuses
    ensures var out := UpdateApplicationStatus(db, caller, id, Some(action));
            Mirrors(AfterUpdate(view, id, action, out.reply.Ok?), out.db.apps.rows)
  {
    var out := UpdateApplicationStatus(db, caller, id, Some(action));
    MembersLowerCase();
    EnumIgnoresCase(StatusValues, action);
    if out.reply.Ok? {
      assert out.db.apps.rows == db.apps.rows[id := db.apps.rows[id].(status := Some(action))];
    } else {
      assert out.db.apps.rows == db.apps.rows;
    }
    StatusWriteMirrored(view, db.apps.rows, out.db.apps.rows, id, action, out.reply.Ok?);
  }

  /** The store side of `ViewMirrorsStore`: one row's status written, or
      nothing written. */
  lemma StatusWriteMirrored(view: seq<Application>, rows: map<nat, Application>, rows': map<nat, Application>,
                            id: nat, action: string, written: bool)
    requires Mirrors(view, rows)
    requires written ==> id in rows && rows' == rows[id := rows[id].(status := Some(action))]
    requires !written ==> rows' == rows
    ensures Mirrors(AfterUpdate(view, id, action, written), rows')
  {
    var r := AfterUpdate(view, id, action, written);
    forall k | 0 <= k < |r|
      ensures r[k].id in rows' && r[k].status == rows'[r[k].id].status
    {
      assert view[k].id in rows;
    }
  }

  /** The page's first two buttons ask for statuses the applications table
      cannot hold: the server answers them with 500 and the card keeps its
      status. Accept and Reject succeed for the job's owner. */
  lemma OfferedTransitionsAtServer(db: Db, caller: Claims, appId: nat, status: Option<string>, action: string)
    requires Valid(db.apps) && appId in db.apps.rows && ForEmployer(db, caller.id, db.apps.rows[appId])
    requires action in Actions(status)
    ensures var out := UpdateApplicationStatus(db, caller, appId, Some(action));
            && (action == "reviewing" || action == "interview" ==>
                  out.reply == Err(500, "Error updating application status") && out.db == db)
            && (action == "accepted" || action == "rejected" ==> out.reply.Ok?)
  {
    OfferedAreKnown(status, action);
    if action == "accepted" || action == "rejected" {
      assert action in StatusValues;
    } else {
      assert action !in StatusValues;
    }
  }

  /** Every button asks for one of the four statuses it names. */
  lemma OfferedAreKnown(status: Option<string>, action: string)
    requires action in Actions(status)
    ensures action in ButtonStatuses
  {
  }

  /** With a list that mirrors the store, the Reviewing and Interview tabs
      are always empty. */
  lemma UnreachableTabsEmpty(view: seq<Application>, db: Db)
    requires Consistent(db) && Mirrors(view, db.apps.rows)
    ensures TabFilter(view, 2) == [] && TabFilter(view, 3) == []
  {
    assert forall k :: k in db.apps.rows ==> StatusAllowed(db.apps.rows[k].status);
    OnlyKnownStatusesShown(view, db.apps.rows);
  }

  /** The list side of `UnreachableTabsEmpty`. */
  lemma OnlyKnownStatusesShown(view: seq<Application>, rows: map<nat, Application>)
    requires Mirrors(view, rows)
    requires forall k :: k in rows ==> StatusAllowed(rows[k].status)
    ensures TabFilter(view, 2) == [] && TabFilter(view, 3) == []
  {
    forall a | a in view ensures a.status != Some("reviewing") && a.status != Some("interview") {
      var i :| 0 <= i < |view| && view[i] == a;
      assert StatusAllowed(rows[a.id].status);
    }
    NoMemberEmpty(TabFilter(view, 2));
    NoMemberEmpty(TabFilter(view, 3));
  }
}

=== FILE: errors.dfy ===
/** server/utils/errorHandler.js: the `ErrorResponse` error class and the
    Express error handler that turns a thrown error into a JSON failure. */
module Errors {
  import opened Common

  /** The fields of a thrown error the handler reads. `code` is a MySQL
      error code and `name` the error class's name; "" stands for an absent
      property. `statusCode` is set on an `ErrorResponse`. */
  datatype Failure = Failure(code: string, name: string, message: string, statusCode: Option<int>)

  /** The response: a status and the body `{ success, error }`. */
  datatype ErrorBody = ErrorBody(success: bool, error: string)
  datatype ErrorReply = ErrorReply(status: int, body: ErrorBody)

  /** `new ErrorResponse(message, statusCode)`. */
  function ErrorResponse(message: string, statusCode: int): (e: Failure)
    ensures e.message == message && e.statusCode == Some(statusCode)
    ensures e.code == "" && e.name == "Error"
  {
    Failure("", "Error", message, Some(statusCode))
  }

  /** The handler's working copy of the error: its status code and message. */
  datatype Draft = Draft(statusCode: Option<int>, message: string)

  /** One `if` of the handler: when it applies, the draft is replaced by a
      fresh `ErrorResponse`. */
  function Override(d: Draft, applies: bool, message: string, statusCode: int): Draft {
    if applies then Draft(Some(statusCode), message) else d
  }

  /** `errorHandler`. The four checks run in order, each replacing the
      result of the ones before, so a name match wins over a code match and
      "TokenExpiredError" is checked last. When none applies, the error's own
      status code (500 when it is missing or 0) and message ("Server Error"
      when it is empty) are used. */
  function ErrorHandler(err: Failure): (r: ErrorReply)
    ensures !r.body.success
    ensures err.name == "TokenExpiredError" ==> r == ErrorReply(401, ErrorBody(false, "Token expired"))
    ensures err.name == "JsonWebTokenError" ==> r == ErrorReply(401, ErrorBody(false, "Invalid token"))
    ensures err.name != "TokenExpiredError" && err.name != "JsonWebTokenError" ==>
              && (err.code == "ER_NO_REFERENCED_ROW_2" ==>
                    r == ErrorReply(404, ErrorBody(false, "Related resource not found")))
              && (err.code == "ER_DUP_ENTRY" ==>
                    r == ErrorReply(400, ErrorBody(false, "Duplicate field value entered")))
    ensures err.name != "TokenExpiredError" && err.name != "JsonWebTokenError"
            && err.code != "ER_NO_REFERENCED_ROW_2" && err.code != "ER_DUP_ENTRY" ==>
              && (err.statusCode.Some? && err.statusCode.value != 0 ==> r.status == err.statusCode.value)
              && (err.statusCode.None? || err.statusCode.value == 0 ==> r.status == 500)
              && (err.message != "" ==> r.body.error == err.message)
              && (err.message == "" ==> r.body.error == "Server Error")
  {
    var copied := Draft(err.statusCode, err.message);
    var afterDup := Override(copied, err.code == "ER_DUP_ENTRY", "Duplicate field value entered", 400);
    var afterRef := Override(afterDup, err.code == "ER_NO_REFERENCED_ROW_2", "Related resource not found", 404);
    var afterJwt := Override(afterRef, err.name == "JsonWebTokenError", "Invalid token", 401);
    var last := Override(afterJwt, err.name == "TokenExpiredError", "Token expired", 401);
    var status := if last.statusCode.None? || last.statusCode.value == 0 then 500 else last.statusCode.value;
    ErrorReply(status, ErrorBody(false, if last.message == "" then "Server Error" else last.message))
  }

  /** An `ErrorResponse` thrown by a handler comes back with its own status
      and message, unless they are falsy. */
  lemma ErrorResponseRoundTrip(message: string, statusCode: int)
    ensures var r := ErrorHandler(ErrorResponse(message, statusCode));
            && r.status == (if statusCode == 0 then 500 else statusCode)
            && r.body.error == (if message == "" then "Server Error" else message)
  {
  }

  /** The status is never 0, whatever the error: a reply always carries a
      real HTTP code. */
  lemma StatusNeverZero(err: Failure)
    ensures ErrorHandler(err).status != 0
  {
  }
}

=== FILE: gates.dfy ===
/** The request gates of server/middleware/auth.js: `auth`, which turns the
    Authorization header into `req.user`, and `employerOnly`, which lets only
    employers through. `jwt.verify` under the server's secret is the
    parameter `verify`: the claims of a valid token, or `None` when it
    throws. */
module Gates {
  import opened Common
  import opened Strings
  import opened Schema

  /** What a gate does with a request: answer it with an error status, or
      call `next` (for `auth`, with `req.user` set to the claims). */
  datatype Verdict = Reject(code: int, error: string) | Admit(user: Claims)

  datatype Gate = Deny(code: int, error: string) | Next

  const Scheme: string := "Bearer "

  /** The token `auth` reads: the header with the first occurrence of
      "Bearer " removed, wherever it is. */
  function ExtractToken(header: string): (token: string)
    ensures forall i :: OccursAt(header, Scheme, i) && (forall k :: 0 <= k < i ==> !OccursAt(header, Scheme, k))
                    ==> token == header[..i] + header[i + |Scheme|..]
    ensures OccursAt(header, Scheme, 0) ==> token == header[|Scheme|..]
    ensures (forall k :: !OccursAt(header, Scheme, k)) ==> token == header
    ensures |token| == |header| || |token| == |header| - |Scheme|
  {
    ReplaceFirst(header, Scheme)
  }

  /** `auth`. No header, or nothing left once "Bearer " is removed, is 401
      without verification; a token `verify` refuses is 401 with another
      message; a verified token admits the request with its claims. */
  function Authenticate(header: Option<string>, verify: string -> Option<Claims>): (v: Verdict)
    ensures (header.None? || ExtractToken(header.value) == "") <==>
              v == Reject(401, "No authentication token, access denied")
    ensures v.Admit? <==> header.Some? && ExtractToken(header.value) != ""
                          && verify(ExtractToken(header.value)).Some?
    ensures v.Admit? ==> v.user == verify(ExtractToken(header.value)).value
    ensures v.Reject? ==> v.code == 401
    ensures header.Some? && ExtractToken(header.value) != "" && verify(ExtractToken(header.value)).None? ==>
              v == Reject(401, "Token verification failed, authorization denied")
  {
    if header.None? then
      Reject(401, "No authentication token, access denied")
    else
      var token := ExtractToken(header.value);
      if token == "" then
        Reject(401, "No authentication token, access denied")
      else
        match verify(token)
        case None => Reject(401, "Token verification failed, authorization denied")
        case Some(claims) => Admit(claims)
  }

  /** `employerOnly`: 403 without a user, 403 for any role but employer,
      `next` for an employer. */
  function EmployerOnly(user: Option<Claims>): (g: Gate)
    ensures user.None? ==> g == Deny(403, "Access denied. No user found.")
    ensures user.Some? && user.value.role != "employer" ==> g == Deny(403, "Access denied. Employers only.")
    ensures g == Next <==> user.Some? && user.value.role == "employer"
  {
    if user.None? then Deny(403, "Access denied. No user found.")
    else if user.value.role != "employer" then Deny(403, "Access denied. Employers only.")
    else Next
  }

  /** A standard bearer header yields exactly the token after the scheme. */
  lemma BearerHeader(token: string)
    ensures ExtractToken(Scheme + token) == token
  {
    assert OccursAt(Scheme + token, Scheme, 0);
    assert (Scheme + token)[|Scheme|..] == token;
  }

  /** The removal is not a prefix strip: "Bearer " is cut out of the middle
      of a header too. */
  lemma NotAPrefixStrip()
    ensures ExtractToken("xBearer abc") == "xabc"
  {
    var h := "xBearer abc";
    assert h[0..7][0] != Scheme[0];
    assert OccursAt(h, Scheme, 1);
    assert h[..1] + h[8..] == "xabc";
  }

  /** A header without any "Bearer " is taken whole as the token, so a bare
      token is accepted just as a bearer one. */
  lemma BareTokenAccepted(token: string, verify: string -> Option<Claims>)
    requires token != "" && (forall k :: !OccursAt(token, Scheme, k))
    requires verify(token).Some?
    ensures Authenticate(Some(token), verify) == Admit(verify(token).value)
    ensures Authenticate(Some(Scheme + token), verify) == Admit(verify(token).value)
  {
    BearerHeader(token);
  }

  /** Behind `auth`, which always sets `req.user`, `employerOnly` never
      reports a missing user: the `auth, employerOnly` chain of the employer
      routes calls the handler iff the token verifies with the employer role. */
  lemma EmployerChain(header: Option<string>, verify: string -> Option<Claims>)
    ensures var v := Authenticate(header, verify);
            v.Admit? ==> EmployerOnly(Some(v.user)) != Deny(403, "Access denied. No user found.")
    ensures var v := Authenticate(header, verify);
            (v.Admit? && EmployerOnly(Some(v.user)) == Next) <==>
              (header.Some? && ExtractToken(header.value) != ""
               && verify(ExtractToken(header.value)).Some?
               && verify(ExtractToken(header.value)).value.role == "employer")
  {
  }
}

=== FILE: jobs.dfy ===
/** The job handlers of server/controllers/jobController.js over the jobs
    table. The caller is the `req.user` an earlier gate established; the
    current time stands for SQL `NOW()`. */
module Jobs {
  import opened Common
  import opened Strings
  import opened Tables
  import opened Listing
  import opened Schema
  import Validation

  /** The query string of `GET /api/jobs`; "" stands for an absent parameter. */
  datatype JobQuery = JobQuery(search: string, location: string, jobType: string)

  /** `column LIKE '%text%'` under the collation: `text` occurs in the
      column, letter case aside. */
  predicate Like(column: string, text: string) {
    Contains(ToLower(column), ToLower(text))
  }

  /** The `WHERE` conditions the query adds: a search text must occur in the
      title, company or description, a location text in the location, and a
      type other than 'all' must equal the job's type; all three compare
      under the collation. The test against 'all' is JavaScript's and
      respects case. */
  predicate MatchesQuery(j: Job, q: JobQuery) {
    && (q.search == "" || Like(j.title, q.search) || Like(j.company, q.search)
        || Like(j.description, q.search))
    && (q.location == "" || Like(j.location, q.location))
    && (q.jobType == "" || q.jobType == "all" || SameText(j.jobType, q.jobType))
  }

  /** A job row appears in the listing: it joins its employer's user row and
      matches the query. */
  predicate Listed(db: Db, q: JobQuery, j: Job) {
    j.employerId in db.users.rows && MatchesQuery(j, q)
  }

  /** The query sets no filter. */
  predicate Unfiltered(q: JobQuery) {
    q.search == "" && q.location == "" && (q.jobType == "" || q.jobType == "all")
  }

  /** `getAllJobs`: the jobs matching the query, each once, newest first;
      without filters, every job. */
  method GetAllJobs(db: Db, q: JobQuery) returns (jobs: seq<Job>)
    ensures forall j :: j in jobs <==> j in db.jobs.rows.Values && Listed(db, q, j)
    ensures NoDup(jobs)
    ensures NewestFirst(jobs, JobCreated)
    ensures Consistent(db) && Unfiltered(q) ==>
              (forall j :: j in jobs <==> j in db.jobs.rows.Values) && |jobs| == |db.jobs.rows|
  {
    jobs := SelectNewestFirst(db.jobs.rows.Values, j => Listed(db, q, j), JobCreated);
    ghost var selected := set j | j in db.jobs.rows.Values && Listed(db, q, j);
    assert (set j | j in db.jobs.rows.Values && (j => Listed(db, q, j))(j)) == selected;
    ListsExactly(jobs, selected);
    if Consistent(db) && Unfiltered(q) {
      assert selected == db.jobs.rows.Values by {
        forall j | j in db.jobs.rows.Values ensures Listed(db, q, j) {
          var k :| k in db.jobs.rows && db.jobs.rows[k] == j;
        }
      }
      KeyedValuesCount(db.jobs.rows, JobId);
    }
  }

  function JobId(j: Job): nat { j.id }

  /** `getJobById`: the job with that id, or 404. */
  function GetJobById(db: Db, id: nat): (r: Reply<Job>)
    ensures r.Ok? ==> r.code == 200 && id in db.jobs.rows && r.value == db.jobs.rows[id]
    ensures r.Err? ==> r == Err(404, "Job not found")
    ensures Consistent(db) ==> (r.Ok? <==> id in db.jobs.rows)
  {
    if id in db.jobs.rows && db.jobs.rows[id].employerId in db.users.rows then
      Ok(200, db.jobs.rows[id])
    else
      Err(404, "Job not found")
  }

  /** The seven fields `createJob` and `updateJob` insist on are truthy; a
      salary of 0 counts as missing. */
  predicate AllFieldsPresent(input: JobInput) {
    && input.title != "" && input.company != "" && input.location != ""
    && input.jobType != "" && input.description != "" && input.requirements != ""
    && input.salary.Some? && input.salary.value != 0
  }

  /** Strict mode takes the row: the type is a member of the ENUM up to
      letter case, the three VARCHAR(255) fields fit, and the salary fits
      DECIMAL(10, 2). */
  predicate StrictModeAccepts(input: JobInput)
    requires input.salary.Some?
  {
    && EnumValue(JobTypes, input.jobType).Some?
    && FitsColumn(input.title) && FitsColumn(input.company) && FitsColumn(input.location)
    && FitsSalary(input.salary.value)
  }

  /** The job's seven editable fields are those of the request, the type
      being stored as the ENUM member it names. */
  predicate CarriesInput(j: Job, input: JobInput)
    requires input.salary.Some?
  {
    && j.title == input.title && j.company == input.company && j.location == input.location
    && j.jobType in JobTypes && SameText(j.jobType, input.jobType)
    && j.description == input.description
    && j.requirements == input.requirements && j.salary == input.salary.value
  }

  /** `createJob`. A missing field throws, and so does an insert strict mode
      refuses (a type that is no member of the enum whatever its case, a
      title, company or location over 255 characters, a salary DECIMAL(10, 2)
      cannot hold, an employer id with no user row): both end in the
      handler's catch with 500 and no row. Otherwise exactly one job is
      added, owned by the caller, with the type stored as its member. */
  function CreateJob(db: Db, caller: Claims, input: JobInput, now: int): (out: Outcome<Job>)
    requires Valid(db.jobs)
    ensures out.reply.Ok? <==> AllFieldsPresent(input) && StrictModeAccepts(input) && caller.id in db.users.rows
    ensures out.reply.Err? ==> out == Outcome(Err(500, "Error creating job"), db)
    ensures out.reply.Ok? ==>
      var j := out.reply.value;
      && out.reply.code == 201
      && j.id !in db.jobs.rows
      && out.db.jobs.rows == db.jobs.rows[j.id := j]
      && j.employerId == caller.id && j.createdAt == now
      && CarriesInput(j, input)
      && out.db.users == db.users && out.db.apps == db.apps
      && |out.db.jobs.rows| == |db.jobs.rows| + 1
  {
    if !AllFieldsPresent(input) then
      Outcome(Err(500, "Error creating job"), db)
    else if !StrictModeAccepts(input) || caller.id !in db.users.rows then
      Outcome(Err(500, "Error creating job"), db)
    else
      var j := Job(db.jobs.nextId, caller.id, input.title, input.company, input.location,
                   EnumValue(JobTypes, input.jobType).value, input.description, input.requirements,
                   input.salary.value, now);
      var jobs := Insert(db.jobs, j);
      assert jobs.rows == db.jobs.rows[j.id := j];
      Outcome(Ok(201, j), db.(jobs := jobs))
  }

  /** `updateJob`. Missing fields are reported before ownership is checked;
      a job that does not exist or is not the caller's gives 404 whichever
      it is. An update strict mode refuses, as in `createJob`, is 500. A
      successful update rewrites the seven fields of that one job and
      nothing else. */
  function UpdateJob(db: Db, caller: Claims, jobId: nat, input: JobInput): (out: Outcome<Job>)
    requires Valid(db.jobs)
    ensures !AllFieldsPresent(input) ==> out == Outcome(Err(500, "Error updating job"), db)
    ensures AllFieldsPresent(input) && !Owns(db, caller.id, jobId) ==>
              out == Outcome(Err(404, "Job not found or unauthorized"), db)
    ensures out.reply.Ok? <==> AllFieldsPresent(input) && Owns(db, caller.id, jobId) && StrictModeAccepts(input)
    ensures out.reply.Err? && out.reply.code != 404 ==> out.reply == Err(500, "Error updating job")
    ensures AllFieldsPresent(input) && Owns(db, caller.id, jobId) && !StrictModeAccepts(input) ==>
              out == Outcome(Err(500, "Error updating job"), db)
    ensures out.reply.Err? ==> out.db == db
    ensures out.reply.Ok? ==>
      var j := out.reply.value;
      var old_ := db.jobs.rows[jobId];
      && out.reply.code == 200
      && out.db.jobs.rows == db.jobs.rows[jobId := j]
      && j.id == old_.id && j.employerId == old_.employerId && j.createdAt == old_.createdAt
      && CarriesInput(j, input)
      && out.db.users == db.users && out.db.apps == db.apps
  {
    if !AllFieldsPresent(input) then
      Outcome(Err(500, "Error updating job"), db)
    else if !Owns(db, caller.id, jobId) then
      Outcome(Err(404, "Job not found or unauthorized"), db)
    else if !StrictModeAccepts(input) then
      Outcome(Err(500, "Error updating job"), db)
    else
      var j := db.jobs.rows[jobId].(title := input.title, company := input.company,
                                    location := input.location,
                                    jobType := EnumValue(JobTypes, input.jobType).value,
                                    description := input.description,
                                    requirements := input.requirements,
                                    salary := input.salary.value);
      var jobs := Put(db.jobs, jobId, j);
      assert jobs.rows == db.jobs.rows[jobId := j];
      Outcome(Ok(200, j), db.(jobs := jobs))
  }

  /** `deleteJob`. Only the owner can delete; anyone else, and any missing
      id, gets 404 and no change. The database cascades the delete to the
      job's applications. */
  function DeleteJob(db: Db, caller: Claims, jobId: nat): (out: Outcome<string>)
    requires Valid(db.jobs) && Valid(db.apps)
    ensures !Owns(db, caller.id, jobId) ==> out == Outcome(Err(404, "Job not found or unauthorized"), db)
    ensures Owns(db, caller.id, jobId) ==>
      && out.reply == Ok(200, "Job deleted successfully")
      && out.db.jobs.rows == db.jobs.rows - {jobId}
      && out.db.users == db.users
      && (forall k :: k in out.db.apps.rows <==> k in db.apps.rows && db.apps.rows[k].jobId != jobId)
      && (forall k :: k in out.db.apps.rows ==> out.db.apps.rows[k] == db.apps.rows[k])
  {
    if !Owns(db, caller.id, jobId) then
      Outcome(Err(404, "Job not found or unauthorized"), db)
    else
      var jobs := Remove(db.jobs, jobId);
      var apps := Retain(db.apps, (a: Application) => a.jobId != jobId);
      assert jobs.rows == db.jobs.rows - {jobId};
      Outcome(Ok(200, "Job deleted successfully"), Db(db.users, jobs, apps))
  }

  /** `getEmployerJobs`: exactly the caller's jobs, newest first. */
  method GetEmployerJobs(db: Db, caller: Claims) returns (jobs: seq<Job>)
    ensures forall j :: j in jobs <==> j in db.jobs.rows.Values && j.employerId == caller.id
                                       && j.employerId in db.users.rows
    ensures NoDup(jobs)
    ensures NewestFirst(jobs, JobCreated)
    ensures Consistent(db) ==> forall k :: Owns(db, caller.id, k) ==> db.jobs.rows[k] in jobs
  {
    var mine := (j: Job) => j.employerId == caller.id && j.employerId in db.users.rows;
    jobs := SelectNewestFirst(db.jobs.rows.Values, mine, JobCreated);
    ghost var selected := set j | j in db.jobs.rows.Values && j.employerId == caller.id
                                  && j.employerId in db.users.rows;
    assert (set j | j in db.jobs.rows.Values && mine(j)) == selected;
    ListsExactly(jobs, selected);
  }

  /** The type filter ignores letter case: `?type=Remote` lists what
      `?type=remote` lists. Only the word 'all' is looked at by JavaScript,
      case and all. */
  lemma TypeFilterIgnoresCase(j: Job, q: JobQuery)
    requires ToLower(q.jobType) != "all"
    ensures MatchesQuery(j, q) == MatchesQuery(j, q.(jobType := ToLower(q.jobType)))
  {
    ToLowerIdempotent(q.jobType);
  }

  /** `?type=ALL` is not the word 'all', so it filters, and no job of the
      enum has that type: nothing is listed. */
  lemma UpperCaseAllListsNothing(j: Job)
    requires j.jobType in JobTypes
    ensures !MatchesQuery(j, JobQuery("", "", "ALL"))
  {
  }

  /** Letter case in the type makes no difference to `createJob`: "Remote"
      creates the same 'remote' job as "remote" does. */
  lemma CreateIgnoresTypeCase(db: Db, caller: Claims, input: JobInput, now: int)
    requires Valid(db.jobs)
    ensures CreateJob(db, caller, input, now) == CreateJob(db, caller, input.(jobType := ToLower(input.jobType)), now)
  {
    MembersLowerCase();
    EnumIgnoresCase(JobTypes, input.jobType);
  }

  /** The server never calls `validateJobInput`: a job with a two-letter
      title, which the validator refuses, is created all the same. */
  lemma JobInputNotValidated(db: Db, caller: Claims, now: int)
    requires Valid(db.jobs) && caller.id in db.users.rows
    ensures var input := JobInput("ab", "co", "lo", "remote", "d", "r", Some(1));
            Validation.ValidateJobInput(input) != [] && CreateJob(db, caller, input, now).reply.Ok?
  {
    var input := JobInput("ab", "co", "lo", "remote", "d", "r", Some(1));
    assert |Trim(input.title)| < 3;
    assert !Validation.AcceptableJob(input);
    MembersLowerCase();
    EnumIgnoresCase(JobTypes, "remote");
    assert AllFieldsPresent(input) && StrictModeAccepts(input);
  }

  /** Likewise for `updateJob`. */
  lemma UpdateIgnoresTypeCase(db: Db, caller: Claims, jobId: nat, input: JobInput)
    requires Valid(db.jobs)
    ensures UpdateJob(db, caller, jobId, input) == UpdateJob(db, caller, jobId, input.(jobType := ToLower(input.jobType)))
  {
    MembersLowerCase();
    EnumIgnoresCase(JobTypes, input.jobType);
  }

  /** Every job handler keeps the schema's constraints: a created job has a
      type of the enum and an existing employer, an update changes neither
      id nor employer and writes a type of the enum, and a delete takes the
      job's applications with it. */
  lemma CreateJobKeepsConsistent(db: Db, caller: Claims, input: JobInput, now: int)
    requires Consistent(db)
    ensures Consistent(CreateJob(db, caller, input, now).db)
  {
    var out := CreateJob(db, caller, input, now);
    if out.reply.Ok? {
      AddJobKeepsConsistent(db, out.reply.value);
    }
  }

  lemma UpdateJobKeepsConsistent(db: Db, caller: Claims, jobId: nat, input: JobInput)
    requires Consistent(db)
    ensures Consistent(UpdateJob(db, caller, jobId, input).db)
  {
    var out := UpdateJob(db, caller, jobId, input);
    if out.reply.Ok? {
      assert out.db.jobs.rows.Keys == db.jobs.rows.Keys;
      assert JobsConsistent(out.db);
      assert AppsConsistent(out.db);
    }
  }

  lemma DeleteJobKeepsConsistent(db: Db, caller: Claims, jobId: nat)
    requires Consistent(db)
    ensures Consistent(DeleteJob(db, caller, jobId).db)
  {
    if Owns(db, caller.id, jobId) {
      CascadeKeepsConsistent(db, jobId);
    }
  }

  /** A job inserted under the counter's id, with a type from the enum and an
      existing employer, keeps the schema's constraints. */
  lemma AddJobKeepsConsistent(db: Db, j: Job)
    requires Consistent(db)
    requires j.id == db.jobs.nextId && j.jobType in JobTypes && j.employerId in db.users.rows
    ensures Consistent(db.(jobs := Insert(db.jobs, j)))
  {
    var after := db.(jobs := Insert(db.jobs, j));
    assert JobsConsistent(after);
    assert AppsConsistent(after) by {
      forall k | k in after.apps.rows ensures after.apps.rows[k].jobId in after.jobs.rows {
        assert db.apps.rows[k].jobId in db.jobs.rows;
      }
    }
  }

  /** Deleting a job together with its applications keeps the schema's
      constraints: no application is left pointing at the deleted job. */
  lemma CascadeKeepsConsistent(db: Db, jobId: nat)
    requires Consistent(db)
    ensures Consistent(Db(db.users, Remove(db.jobs, jobId),
                          Retain(db.apps, (a: Application) => a.jobId != jobId)))
  {
    var after := Db(db.users, Remove(db.jobs, jobId),
                    Retain(db.apps, (a: Application) => a.jobId != jobId));
    assert JobsConsistent(after);
    assert AppsConsistent(after) by {
      forall k | k in after.apps.rows
        ensures after.apps.rows[k].jobId in after.jobs.rows
      {
        assert after.apps.rows[k] == db.apps.rows[k];
      }
    }
    assert OneApplicationPerPair(after.apps);
  }
}

=== FILE: listing.dfy ===
/** The shape shared by every list endpoint: select the rows of a table that
    satisfy a `WHERE` condition and return them `ORDER BY created_at DESC`. */
module Listing {
  import opened Common

  /** Rows are ordered newest first by `date`; rows with equal dates may come
      in either order, as SQL leaves ties unordered. */
  ghost predicate NewestFirst<T>(s: seq<T>, date: T -> int) {
    forall i, j :: 0 <= i < j < |s| ==> date(s[i]) >= date(s[j])
  }

  /** Put `x` in front of the first row that is not newer than it. */
  function InsertNewest<T>(x: T, s: seq<T>, date: T -> int): (r: seq<T>)
    requires NewestFirst(s, date)
    ensures NewestFirst(r, date)
    ensures multiset(r) == multiset(s) + multiset{x}
  {
    if |s| == 0 || date(x) >= date(s[0]) then
      assert forall k :: 0 <= k < |s| ==> date(x) >= date(s[k]);
      [x] + s
    else
      var rest := InsertNewest(x, s[1..], date);
      assert s == [s[0]] + s[1..];
      assert forall k :: 0 <= k < |rest| ==> date(s[0]) >= date(rest[k]) by {
        forall k | 0 <= k < |rest|
          ensures date(s[0]) >= date(rest[k])
        {
          assert rest[k] in multiset(rest);
          if rest[k] != x {
            assert rest[k] in multiset(s[1..]);
            var m :| 0 <= m < |s[1..]| && s[1..][m] == rest[k];
            assert s[m + 1] == rest[k];
          }
        }
      }
      [s[0]] + rest
  }

  /** `SELECT * FROM rows WHERE keep ORDER BY date DESC`: every kept row
      exactly once, newest first. */
  method SelectNewestFirst<T(!new)>(rows: set<T>, keep: T -> bool, date: T -> int) returns (r: seq<T>)
    ensures NewestFirst(r, date)
    ensures multiset(r) == multiset(set x | x in rows && keep(x))
  {
    r := [];
    var rest := rows;
    while rest != {}
      invariant rest <= rows
      invariant NewestFirst(r, date)
      invariant multiset(r) == multiset(set x | x in rows - rest && keep(x))
      decreases rest
    {
      var x :| x in rest;
      ghost var before := set y | y in rows - rest && keep(y);
      ghost var after := set y | y in rows - (rest - {x}) && keep(y);
      if keep(x) {
        assert after == before + {x};
        assert x !in before;
        r := InsertNewest(x, r, date);
      } else {
        assert after == before;
      }
      rest := rest - {x};
    }
    assert rows - rest == rows;
  }

  /** A sequence whose multiset is that of a set lists each member of the
      set exactly once and nothing else. */
  lemma ListsExactly<T>(r: seq<T>, s: set<T>)
    requires multiset(r) == multiset(s)
    ensures forall x :: x in r <==> x in s
    ensures NoDup(r)
    ensures |r| == |s|
  {
    forall x
      ensures x in r <==> x in s
    {
      assert x in r <==> x in multiset(r);
    }
    forall i, j | 0 <= i < j < |r|
      ensures r[i] != r[j]
    {
      RepeatCountsTwice(r, i, j);
    }
    assert |multiset(r)| == |r|;
    assert |multiset(s)| == |s|;
  }

  /** An element found at two positions occurs at least twice in the multiset. */
  lemma RepeatCountsTwice<T>(r: seq<T>, i: nat, j: nat)
    requires i < j < |r|
    ensures r[i] == r[j] ==> multiset(r)[r[i]] >= 2
  {
    assert r == r[..j] + r[j..];
    assert r[i] in r[..j];
    assert r[j] in r[j..];
    assert multiset(r) == multiset(r[..j]) + multiset(r[j..]);
  }
}

=== FILE: private_route.dfy ===
/** client/src/components/PrivateRoute.js: the guard wrapped around the
    client's protected pages. The user is the logged-in user's role, if any. */
module PrivateRoute {
  import opened Common
  import opened Schema
  import opened Gates

  datatype Route = Redirect(to: string) | RenderChildren

  /** The guard: no user goes to /login; with `employerOnly` a user whose
      role is not employer goes to /jobs; everyone else sees the page. */
  function Guard(role: Option<string>, employerOnly: bool): (r: Route)
    ensures role.None? <==> r == Redirect("/login")
    ensures r == Redirect("/jobs") <==> role.Some? && employerOnly && role.value != "employer"
    ensures r == RenderChildren <==> role.Some? && (!employerOnly || role.value == "employer")
  {
    if role.None? then Redirect("/login")
    else if employerOnly && role.value != "employer" then Redirect("/jobs")
    else RenderChildren
  }

  /** `employerOnly` defaults to false. */
  const DefaultEmployerOnly: bool := false

  /** Without the flag any logged-in user gets the page, and an employer
      gets it either way. */
  lemma LoggedInSuffices(role: string, employerOnly: bool)
    ensures Guard(Some(role), DefaultEmployerOnly) == RenderChildren
    ensures Guard(Some("employer"), employerOnly) == RenderChildren
  {
  }

  /** The guard as the server sees it: with the flag, the page shows exactly
      for the users `employerOnly` admits; with the default flag, a logged-in
      user who is not an employer sees the page that the server then
      refuses with 403. */
  lemma GuardMatchesServerGate(role: Option<string>, id: nat)
    ensures var user := if role.None? then None else Some(Claims(id, role.value));
            Guard(role, true) == RenderChildren <==> EmployerOnly(user) == Next
    ensures var user := if role.None? then None else Some(Claims(id, role.value));
            role.Some? && role.value != "employer" ==>
              Guard(role, DefaultEmployerOnly) == RenderChildren && EmployerOnly(user) == Deny(403, "Access denied. Employers only.")
  {
  }
}

=== FILE: schema.dfy ===
/** The persistent state of the job board: the users, jobs and applications
    tables with the constraints their declarations impose (unique e-mail,
    enumerated columns, foreign keys, column widths), how the tables'
    collation compares strings, plus the request and response shapes every
    handler shares. */
module Schema {
  import opened Common
  import opened Strings
  import opened Tables

  /** The values of the enumerated columns users.role, jobs.type and
      applications.status. */
  const Roles: set<string> := {"job_seeker", "employer"}
  const JobTypes: set<string> := {"full-time", "part-time", "contract", "remote"}
  const StatusValues: set<string> := {"pending", "accepted", "rejected"}

  /** The default of applications.status. */
  const DefaultStatus: string := "pending"

  /** applications.status is the one enumerated column without NOT NULL:
      it holds a value of the enum or NULL (`None`). */
  predicate StatusAllowed(status: Option<string>) {
    status.None? || status.value in StatusValues
  }

  /** Equality under the tables' case-insensitive collation (MySQL's default
      `utf8mb4_0900_ai_ci`), as far as ASCII letters go. A `=` in a WHERE
      clause, `LIKE`, the UNIQUE index on e-mail and the assignment of a
      value to an ENUM column all compare this way. */
  predicate SameText(a: string, b: string) {
    ToLower(a) == ToLower(b)
  }

  /** The member an ENUM column stores for `s`: the member equal to `s`
      under the collation; `None` when there is none, and strict mode then
      refuses the write. */
  function EnumValue(members: set<string>, s: string): (stored: Option<string>)
    ensures stored.Some? ==> stored.value in members && SameText(stored.value, s)
    ensures stored.None? ==> forall v | v in members && ToLower(v) == v :: !SameText(v, s)
  {
    ToLowerIdempotent(s);
    if ToLower(s) in members then Some(ToLower(s)) else None
  }

  /** Every member of the three ENUMs is written in lower case. */
  lemma MembersLowerCase()
    ensures forall v | v in Roles :: ToLower(v) == v
    ensures forall v | v in JobTypes :: ToLower(v) == v
    ensures forall v | v in StatusValues :: ToLower(v) == v
  {
    forall v | v in Roles + JobTypes + StatusValues ensures ToLower(v) == v {
      assert forall i :: 0 <= i < |v| ==> !IsUpper(v[i]);
    }
  }

  /** A member is stored as itself, and a value differing from a member only
      in letter case is stored as that member. */
  lemma EnumIgnoresCase(members: set<string>, s: string)
    requires forall v | v in members :: ToLower(v) == v
    ensures s in members ==> EnumValue(members, s) == Some(s)
    ensures EnumValue(members, s) == EnumValue(members, ToLower(s))
  {
    ToLowerIdempotent(s);
  }

  /** The width of every VARCHAR column of the schema. */
  const ColumnLimit: nat := 255

  /** A value a VARCHAR(255) column takes in strict mode. */
  predicate FitsColumn(s: string) {
    |s| <= ColumnLimit
  }

  /** A value DECIMAL(10, 2) takes in strict mode: at most eight digits
      before the point. */
  predicate FitsSalary(salary: int) {
    -100000000 < salary < 100000000
  }

  /** A bcrypt digest; it is never the plaintext password. */
  datatype Hash = Hash(digest: string)

  datatype User = User(
    id: nat,
    username: string,
    email: string,
    password: Hash,
    role: string,
    resetToken: Option<string>,
    resetExpiry: Option<int>)

  datatype Job = Job(
    id: nat,
    employerId: nat,
    title: string,
    company: string,
    location: string,
    jobType: string,
    description: string,
    requirements: string,
    salary: int,
    createdAt: int)

  datatype Application = Application(
    id: nat,
    jobId: nat,
    applicantId: nat,
    coverLetter: string,
    status: Option<string>,
    createdAt: int)

  datatype Db = Db(users: Table<User>, jobs: Table<Job>, apps: Table<Application>)

  /** The payload of a verified bearer token, i.e. `req.user`. */
  datatype Claims = Claims(id: nat, role: string)

  /** An HTTP response: a status code with a body, or a status code with the
      `error` message of the JSON error body. */
  datatype Reply<T> = Ok(code: int, value: T) | Err(code: int, error: string)

  /** What a state-changing handler produces: the response and the new state. */
  datatype Outcome<T> = Outcome(reply: Reply<T>, db: Db)

  /** The job fields of a create or update request body. The empty string
      stands for a missing field (both are falsy); `None` is a missing or
      empty salary. */
  datatype JobInput = JobInput(
    title: string,
    company: string,
    location: string,
    jobType: string,
    description: string,
    requirements: string,
    salary: Option<int>)

  /** `created_at`, the sort key of every list endpoint. */
  function JobCreated(j: Job): int { j.createdAt }
  function AppCreated(a: Application): int { a.createdAt }

  /** The job exists and belongs to `employer` (`WHERE id = ? AND employer_id = ?`). */
  predicate Owns(db: Db, employer: nat, jobId: nat) {
    jobId in db.jobs.rows && db.jobs.rows[jobId].employerId == employer
  }

  /** Some user has this e-mail under the collation (`SELECT * FROM users
      WHERE email = ?` is non-empty). */
  predicate EmailTaken(db: Db, email: string) {
    exists k | k in db.users.rows.Keys :: SameText(db.users.rows[k].email, email)
  }

  /** An application for this (job, applicant) pair exists. */
  predicate HasApplied(db: Db, jobId: nat, applicantId: nat) {
    exists k | k in db.apps.rows.Keys ::
      db.apps.rows[k].jobId == jobId && db.apps.rows[k].applicantId == applicantId
  }

  ghost predicate UsersConsistent(users: Table<User>) {
    && Valid(users)
    && (forall k :: k in users.rows ==> users.rows[k].id == k && users.rows[k].role in Roles)
    && (forall k, k' :: k in users.rows && k' in users.rows && SameText(users.rows[k].email, users.rows[k'].email) ==> k == k')
  }

  ghost predicate JobsConsistent(db: Db) {
    && Valid(db.jobs)
    && forall k :: k in db.jobs.rows ==>
         && db.jobs.rows[k].id == k
         && db.jobs.rows[k].jobType in JobTypes
         && db.jobs.rows[k].employerId in db.users.rows
  }

  ghost predicate AppsConsistent(db: Db) {
    && Valid(db.apps)
    && forall k :: k in db.apps.rows ==>
         && db.apps.rows[k].id == k
         && StatusAllowed(db.apps.rows[k].status)
         && db.apps.rows[k].jobId in db.jobs.rows
         && db.apps.rows[k].applicantId in db.users.rows
  }

  /** At most one application per (job, applicant) pair. The table declares
      no such UNIQUE key: `createApplication`'s check before its insert is
      what keeps it. */
  ghost predicate OneApplicationPerPair(apps: Table<Application>) {
    forall k, k' ::
      (&& k in apps.rows && k' in apps.rows
       && apps.rows[k].jobId == apps.rows[k'].jobId
       && apps.rows[k].applicantId == apps.rows[k'].applicantId) ==> k == k'
  }

  /** The invariant of every reachable database state: what the schema's
      declarations guarantee (unique e-mail, the enumerated columns, the
      foreign keys), together with the one-application-per-pair rule that
      the handlers, not the schema, maintain. */
  ghost predicate Consistent(db: Db) {
    && UsersConsistent(db.users)
    && JobsConsistent(db)
    && AppsConsistent(db)
    && OneApplicationPerPair(db.apps)
  }

  /** The database right after the tables are created. */
  function EmptyDb(): (db: Db)
    ensures Consistent(db)
    ensures |db.users.rows| == 0 && |db.jobs.rows| == 0 && |db.apps.rows| == 0
  {
    Db(Empty(), Empty(), Empty())
  }
}

=== FILE: strings.dfy ===
/** Character classes and the few string operations of JavaScript and SQL
    that the server relies on, over `string` (a sequence of characters). */
module Strings {
  import opened Common

  predicate IsLower(c: char) { 'a' <= c <= 'z' }
  predicate IsUpper(c: char) { 'A' <= c <= 'Z' }
  predicate IsDigit(c: char) { '0' <= c <= '9' }
  predicate IsLetter(c: char) { IsLower(c) || IsUpper(c) }

  /** The line terminators of ECMAScript; the regex `.` does not match them. */
  predicate IsLineTerminator(c: char) {
    c == '\n' || c == '\r' || c == '\U{2028}' || c == '\U{2029}'
  }

  /** The characters `String.prototype.trim` removes: ECMAScript white space
      (tab, vertical tab, form feed, space, no-break space, byte order mark and
      the space separators) and the line terminators. */
  predicate IsTrimSpace(c: char) {
    || c == '\t' || c == '\U{000B}' || c == '\U{000C}' || c == ' '
    || c == '\U{00A0}' || c == '\U{FEFF}' || c == '\U{1680}'
    || ('\U{2000}' <= c <= '\U{200A}')
    || c == '\U{202F}' || c == '\U{205F}' || c == '\U{3000}'
    || IsLineTerminator(c)
  }

  /** ASCII lower-casing of one character. */
  function LowerChar(c: char): (d: char)
    ensures IsUpper(c) ==> IsLower(d) && d as int == c as int + 32
    ensures !IsUpper(c) ==> d == c
  {
    if IsUpper(c) then (c as int + 32) as char else c
  }

  /** `toLowerCase` restricted to ASCII letters. */
  function ToLower(s: string): (r: string)
    ensures |r| == |s|
    ensures forall i :: 0 <= i < |s| ==> r[i] == LowerChar(s[i])
  {
    seq(|s|, i requires 0 <= i < |s| => LowerChar(s[i]))
  }

  /** Lower-casing twice is lower-casing once. */
  lemma ToLowerIdempotent(s: string)
    ensures ToLower(ToLower(s)) == ToLower(s)
  {
    var once := ToLower(s);
    assert forall i :: 0 <= i < |once| ==> LowerChar(once[i]) == once[i];
  }

  /** The number of leading characters `trim` removes. */
  function LeadingSpaces(s: string): (n: nat)
    ensures n <= |s|
    ensures forall k :: 0 <= k < n ==> IsTrimSpace(s[k])
    ensures n == |s| || !IsTrimSpace(s[n])
  {
    if |s| > 0 && IsTrimSpace(s[0]) then 1 + LeadingSpaces(s[1..]) else 0
  }

  /** The number of trailing characters `trim` removes. */
  function TrailingSpaces(s: string): (n: nat)
    ensures n <= |s|
    ensures forall k :: |s| - n <= k < |s| ==> IsTrimSpace(s[k])
    ensures n == |s| || !IsTrimSpace(s[|s| - n - 1])
  {
    if |s| > 0 && IsTrimSpace(s[|s| - 1]) then 1 + TrailingSpaces(s[..|s| - 1]) else 0
  }

  /** `String.prototype.trim`: drop white space at both ends. */
  function Trim(s: string): (r: string)
    ensures |r| <= |s|
    ensures r == [] || (!IsTrimSpace(r[0]) && !IsTrimSpace(r[|r| - 1]))
  {
    var rest := s[LeadingSpaces(s)..];
    rest[..|rest| - TrailingSpaces(rest)]
  }

  /** `sub` occurs in `s` as a contiguous piece (SQL `LIKE '%sub%'` without
      wildcards in `sub`). */
  predicate Contains(s: string, sub: string) {
    exists i | 0 <= i <= |s| - |sub| :: OccursAt(s, sub, i)
  }

  /** `pat` occurs in `s` at position `i`. */
  predicate OccursAt(s: string, pat: string, i: int) {
    0 <= i <= |s| - |pat| && s[i..i + |pat|] == pat
  }

  /** The first position at or after `from` where `pat` occurs, if any. */
  function IndexOf(s: string, pat: string, from: nat): (r: Option<nat>)
    ensures r.Some? ==> from <= r.value && OccursAt(s, pat, r.value)
    ensures r.Some? ==> forall k :: from <= k < r.value ==> !OccursAt(s, pat, k)
    ensures r.None? ==> forall k :: from <= k ==> !OccursAt(s, pat, k)
    decreases |s| - from
  {
    if from + |pat| > |s| then None
    else if s[from..from + |pat|] == pat then Some(from)
    else IndexOf(s, pat, from + 1)
  }

  /** `s.replace(pat, "")` with a string pattern: the FIRST occurrence of
      `pat` is cut out, wherever it is; without an occurrence `s` is returned. */
  function ReplaceFirst(s: string, pat: string): (r: string)
    ensures (forall k :: !OccursAt(s, pat, k)) ==> r == s
    ensures forall i :: OccursAt(s, pat, i) && (forall k :: 0 <= k < i ==> !OccursAt(s, pat, k))
                    ==> r == s[..i] + s[i + |pat|..]
  {
    match IndexOf(s, pat, 0)
    case None => s
    case Some(i) => s[..i] + s[i + |pat|..]
  }
}

=== FILE: tables.dfy ===
/** A relational table with an AUTO_INCREMENT primary key, as the server's
    three tables (users, jobs, applications) are declared. Rows are kept by
    id; `nextId` is the id the next insert receives. */
module Tables {
  import opened Common

  datatype Table<T> = Table(rows: map<nat, T>, nextId: nat)

  /** Every id in use is positive and below the auto-increment counter. */
  ghost predicate Valid<T>(t: Table<T>) {
    0 < t.nextId && forall k :: k in t.rows ==> 0 < k < t.nextId
  }

  /** A freshly created table: no rows, counter at 1. */
  function Empty<T>(): (t: Table<T>)
    ensures Valid(t) && |t.rows| == 0
  {
    Table(map[], 1)
  }

  /** `INSERT`: the row gets the counter's id, which no row had before;
      every other row is kept as it was. */
  function Insert<T>(t: Table<T>, row: T): (r: Table<T>)
    requires Valid(t)
    ensures Valid(r)
    ensures t.nextId !in t.rows
    ensures r.rows.Keys == t.rows.Keys + {t.nextId}
    ensures r.rows[t.nextId] == row
    ensures forall k :: k in t.rows ==> r.rows[k] == t.rows[k]
  {
    Table(t.rows[t.nextId := row], t.nextId + 1)
  }

  /** `UPDATE ... WHERE id = k` on an existing row: only row `k` changes. */
  function Put<T>(t: Table<T>, k: nat, row: T): (r: Table<T>)
    requires Valid(t) && k in t.rows
    ensures Valid(r)
    ensures r.rows.Keys == t.rows.Keys && r.nextId == t.nextId
    ensures r.rows[k] == row
    ensures forall j :: j in t.rows && j != k ==> r.rows[j] == t.rows[j]
  {
    Table(t.rows[k := row], t.nextId)
  }

  /** `DELETE ... WHERE id = k`: row `k` disappears, the others stay. */
  function Remove<T>(t: Table<T>, k: nat): (r: Table<T>)
    requires Valid(t)
    ensures Valid(r)
    ensures r.rows.Keys == t.rows.Keys - {k} && r.nextId == t.nextId
    ensures forall j :: j in r.rows ==> r.rows[j] == t.rows[j]
  {
    Table(t.rows - {k}, t.nextId)
  }

  /** Keep the rows satisfying `keep` (what a cascading delete leaves). */
  function Retain<T>(t: Table<T>, keep: T -> bool): (r: Table<T>)
    requires Valid(t)
    ensures Valid(r)
    ensures forall j :: j in r.rows <==> j in t.rows && keep(t.rows[j])
    ensures forall j :: j in r.rows ==> r.rows[j] == t.rows[j]
    ensures r.nextId == t.nextId
  {
    Table(map j | j in t.rows && keep(t.rows[j]) :: t.rows[j], t.nextId)
  }

  /** `SELECT ... WHERE p LIMIT 1` read in primary-key order: the lowest id
      whose row satisfies `p`, or nothing when no row does. */
  function Find<T>(t: Table<T>, p: T -> bool): (r: Option<nat>)
    requires Valid(t)
    ensures r.Some? ==> r.value in t.rows && p(t.rows[r.value])
    ensures r.Some? ==> forall k :: k in t.rows && k < r.value ==> !p(t.rows[k])
    ensures r.None? <==> forall k :: k in t.rows ==> !p(t.rows[k])
  {
    FindFrom(t, p, 0)
  }

  /** Two conditions that hold of the same rows find the same row. */
  lemma FindAgrees<T>(t: Table<T>, p: T -> bool, q: T -> bool)
    requires Valid(t)
    requires forall k :: k in t.rows ==> p(t.rows[k]) == q(t.rows[k])
    ensures Find(t, p) == Find(t, q)
  {
  }

  /** The search behind `Find`, scanning ids upwards from `from`. */
  function FindFrom<T>(t: Table<T>, p: T -> bool, from: nat): (r: Option<nat>)
    requires Valid(t)
    ensures r.Some? ==> from <= r.value && r.value in t.rows && p(t.rows[r.value])
    ensures r.Some? ==> forall k :: k in t.rows && from <= k < r.value ==> !p(t.rows[k])
    ensures r.None? ==> forall k :: k in t.rows && from <= k ==> !p(t.rows[k])
    decreases t.nextId - from
  {
    if from >= t.nextId then None
    else if from in t.rows && p(t.rows[from]) then Some(from)
    else FindFrom(t, p, from + 1)
  }

  /** When every row records its own key, distinct keys hold distinct rows,
      so there are as many row values as keys. */
  lemma {:induction false} KeyedValuesCount<T>(m: map<nat, T>, key: T -> nat)
    requires forall k :: k in m ==> key(m[k]) == k
    ensures |m.Values| == |m|
    decreases |m|
  {
    if |m| > 0 {
      var k :| k in m;
      var rest := m - {k};
      assert rest.Keys == m.Keys - {k};
      assert |rest| == |m| - 1;
      KeyedValuesCount(rest, key);
      assert m.Values == rest.Values + {m[k]} by {
        forall v | v in m.Values ensures v in rest.Values + {m[k]} {
          var j :| j in m && m[j] == v;
          if j != k { assert rest[j] == v; }
        }
        forall v | v in rest.Values ensures v in m.Values {
          var j :| j in rest && rest[j] == v;
          assert m[j] == v;
        }
      }
      assert forall j :: j in rest ==> rest[j] != m[k] by {
        forall j | j in rest ensures rest[j] != m[k] {
          assert key(rest[j]) == j != k == key(m[k]);
        }
      }
    }
  }
}

=== FILE: validation.dfy ===
/** The input validators and the HTML sanitiser of server/utils/validation.js.
    The regular expressions are written out as predicates over character
    positions instead of being run by a regex engine. */
module Validation {
  import opened Common
  import opened Strings
  import opened Schema

  // ---------------------------------------------------------------- e-mail

  /** The character class `[a-zA-Z0-9._%+-]` of the local part. */
  predicate LocalChar(c: char) {
    IsLetter(c) || IsDigit(c) || c == '.' || c == '_' || c == '%' || c == '+' || c == '-'
  }

  /** The character class `[a-zA-Z0-9.-]` of the domain. */
  predicate DomainChar(c: char) {
    IsLetter(c) || IsDigit(c) || c == '.' || c == '-'
  }

  /** `s` matches `^[a-zA-Z0-9._%+-]+@[a-zA-Z0-9.-]+\.[a-zA-Z]{2,}$`: some
      '@' at `at` and some '.' at `dot` split it into a non-empty local part,
      a non-empty domain and a top-level part of at least two letters. */
  predicate EmailPattern(s: string) {
    exists at, dot | 1 <= at < |s| && at + 2 <= dot <= |s| - 3 ::
      EmailSplit(s, at, dot)
  }

  /** The three parts around positions `at` and `dot` have the right shape. */
  predicate EmailSplit(s: string, at: int, dot: int)
    requires 1 <= at && at + 2 <= dot <= |s| - 3
  {
    && s[at] == '@'
    && s[dot] == '.'
    && (forall i | 0 <= i < at :: LocalChar(s[i]))
    && (forall i | at < i < dot :: DomainChar(s[i]))
    && (forall i | dot < i < |s| :: IsLetter(s[i]))
  }

  /** `validateEmail`: the pattern is matched against the lower-cased input. */
  predicate ValidateEmail(email: string) {
    EmailPattern(ToLower(email))
  }

  /** The number of occurrences of `c` in `s`. */
  function CountChar(s: string, c: char): (n: nat)
    ensures n <= |s|
    ensures n == 0 <==> c !in s
  {
    if |s| == 0 then 0 else (if s[0] == c then 1 else 0) + CountChar(s[1..], c)
  }

  lemma {:induction false} CountCharConcat(a: string, b: string, c: char)
    ensures CountChar(a + b, c) == CountChar(a, c) + CountChar(b, c)
  {
    if |a| == 0 {
      assert a + b == b;
    } else {
      assert (a + b)[1..] == a[1..] + b;
      CountCharConcat(a[1..], b, c);
    }
  }

  /** Lower-casing moves no '@' or '.' and keeps letters letters. */
  lemma LowerCharKeepsClasses(c: char)
    ensures LowerChar(c) == '@' <==> c == '@'
    ensures LowerChar(c) == '.' <==> c == '.'
    ensures IsLetter(LowerChar(c)) <==> IsLetter(c)
  {
  }

  /** Validation ignores letter case: an address and its lower-cased form
      are accepted together. */
  lemma EmailIgnoresCase(email: string)
    ensures ValidateEmail(email) == ValidateEmail(ToLower(email))
  {
    ToLowerIdempotent(email);
  }

  /** Every accepted address contains exactly one '@' and ends in a '.'
      followed by at least two letters. */
  lemma AcceptedEmailShape(email: string)
    requires ValidateEmail(email)
    ensures CountChar(email, '@') == 1
    ensures exists dot :: 0 <= dot <= |email| - 3 && email[dot] == '.'
              && forall i :: dot < i < |email| ==> IsLetter(email[i])
  {
    var s := ToLower(email);
    var at, dot :| 1 <= at < |s| && at + 2 <= dot <= |s| - 3 && EmailSplit(s, at, dot);
    SplitSurvivesLowering(email, at, dot);
    CountOnce(email, at, '@');
    assert 0 <= dot <= |email| - 3 && email[dot] == '.';
  }

  /** The '@', the '.' and the letters the pattern finds in the lower-cased
      address are at the same places in the address itself, and no other
      position holds an '@'. */
  lemma SplitSurvivesLowering(email: string, at: int, dot: int)
    requires 1 <= at && at + 2 <= dot <= |email| - 3
    requires EmailSplit(ToLower(email), at, dot)
    ensures email[at] == '@' && email[dot] == '.'
    ensures forall i :: 0 <= i < |email| && i != at ==> email[i] != '@'
    ensures forall i :: dot < i < |email| ==> IsLetter(email[i])
  {
    var s := ToLower(email);
    forall i | 0 <= i < |email|
      ensures email[i] == '@' <==> s[i] == '@'
      ensures email[i] == '.' <==> s[i] == '.'
      ensures IsLetter(email[i]) <==> IsLetter(s[i])
    {
      LowerCharKeepsClasses(email[i]);
    }
    forall i | 0 <= i < |email| && i != at
      ensures s[i] != '@'
    {
      if i < at { assert LocalChar(s[i]); }
      else if i < dot { assert DomainChar(s[i]); }
      else if i > dot { assert IsLetter(s[i]); }
    }
  }

  /** A character found at exactly one position is counted once. */
  lemma CountOnce(s: string, at: int, c: char)
    requires 0 <= at < |s| && s[at] == c
    requires forall i :: 0 <= i < |s| && i != at ==> s[i] != c
    ensures CountChar(s, c) == 1
  {
    assert s == s[..at] + [s[at]] + s[at + 1..];
    CountCharConcat(s[..at] + [s[at]], s[at + 1..], c);
    CountCharConcat(s[..at], [s[at]], c);
    assert c !in s[..at];
    assert c !in s[at + 1..];
  }

  // -------------------------------------------------------------- password

  /** A lookahead `(?=.*[class])` at the start of the input: some character of
      the class occurs with no line terminator before it, because `.` does not
      match line terminators. */
  predicate LookaheadFinds(s: string, charClass: char -> bool) {
    exists i | 0 <= i < |s| :: charClass(s[i]) && NoTerminatorBefore(s, i)
  }

  predicate NoTerminatorBefore(s: string, i: int)
    requires 0 <= i <= |s|
  {
    forall k | 0 <= k < i :: !IsLineTerminator(s[k])
  }

  /** `validatePassword`: the pattern
      `^(?=.*[a-z])(?=.*[A-Z])(?=.*\d)[a-zA-Z\d\w\W]{8,}$`. The final class
      `[\w\W]` matches every character, so the body only asks for length 8. */
  predicate ValidatePassword(password: string) {
    && LookaheadFinds(password, IsLower)
    && LookaheadFinds(password, IsUpper)
    && LookaheadFinds(password, IsDigit)
    && |password| >= 8
  }

  predicate HasLineTerminator(s: string) {
    exists i | 0 <= i < |s| :: IsLineTerminator(s[i])
  }

  /** On a single line, a password is accepted exactly when it has at least
      eight characters including a lower-case letter, an upper-case letter and
      a digit. */
  lemma PasswordRule(password: string)
    requires !HasLineTerminator(password)
    ensures ValidatePassword(password) <==>
      && |password| >= 8
      && (exists i :: 0 <= i < |password| && IsLower(password[i]))
      && (exists i :: 0 <= i < |password| && IsUpper(password[i]))
      && (exists i :: 0 <= i < |password| && IsDigit(password[i]))
  {
    forall i | 0 <= i < |password|
      ensures NoTerminatorBefore(password, i)
    {
    }
  }

  /** With a line break, a character class seen only after it does not
      count: this password has all three classes yet is refused. */
  lemma PasswordSecondLineIgnored()
    ensures !ValidatePassword("abcdefg1\nX")
  {
    var p := "abcdefg1\nX";
    assert IsLineTerminator(p[8]);
    forall i | 0 <= i < |p| && IsUpper(p[i])
      ensures !NoTerminatorBefore(p, i)
    {
      assert i == 9;
    }
  }

  // ------------------------------------------------------------ job input

  /** The checks of `validateJobInput`, in the order they run. */
  datatype JobProblem =
    | ShortTitle | ShortCompany | ShortLocation | UnknownType | ShortDescription | NegativeSalary

  /** The message pushed for each failed check. */
  function Message(p: JobProblem): string {
    match p
    case ShortTitle => "Job title must be at least 3 characters long"
    case ShortCompany => "Company name must be at least 2 characters long"
    case ShortLocation => "Location must be at least 2 characters long"
    case UnknownType => "Invalid job type"
    case ShortDescription => "Job description must be at least 50 characters long"
    case NegativeSalary => "Salary must be a positive number"
  }

  /** The position of a check in the order the checks run. */
  function Rank(p: JobProblem): nat {
    match p
    case ShortTitle => 0
    case ShortCompany => 1
    case ShortLocation => 2
    case UnknownType => 3
    case ShortDescription => 4
    case NegativeSalary => 5
  }

  /** `if (!field || field.trim().length < min)`. */
  predicate TooShort(field: string, min: nat) {
    field == "" || |Trim(field)| < min
  }

  /** `if (salary && (isNaN(salary) || salary < 0))` on a numeric salary. */
  predicate BadSalary(salary: Option<int>) {
    salary.Some? && salary.value != 0 && salary.value < 0
  }

  function Complaint<T>(failed: bool, problem: T): seq<T> {
    if failed then [problem] else []
  }

  /** The check that runs in position `n`. */
  function CheckAt(n: nat): (p: JobProblem)
    requires n < 6
    ensures Rank(p) == n
  {
    [ShortTitle, ShortCompany, ShortLocation, UnknownType, ShortDescription, NegativeSalary][n]
  }

  /** Whether a check fails on `job`, as each `if` of `validateJobInput` tests it. */
  predicate Fails(job: JobInput, p: JobProblem) {
    match p
    case ShortTitle => TooShort(job.title, 3)
    case ShortCompany => TooShort(job.company, 2)
    case ShortLocation => TooShort(job.location, 2)
    case UnknownType => job.jobType !in JobTypes
    case ShortDescription => TooShort(job.description, 50)
    case NegativeSalary => BadSalary(job.salary)
  }

  /** The checks from position `n` on that fail on `job`, in the order they
      run: each check pushes at most one entry. */
  function ProblemsFrom(job: JobInput, n: nat): (problems: seq<JobProblem>)
    requires n <= 6
    ensures |problems| <= 6 - n
    ensures AscendingFrom(problems, n)
    ensures forall p :: p in problems <==> n <= Rank(p) && Fails(job, p)
    decreases 6 - n
  {
    if n == 6 then []
    else
      var check := CheckAt(n);
      var rest := ProblemsFrom(job, n + 1);
      RankIdentifies(n);
      if Fails(job, check) then
        PushKeepsAscending(check, rest, n);
        [check] + rest
      else rest
  }

  /** The ranks of `problems` are at least `n` and strictly increase. */
  ghost predicate AscendingFrom(problems: seq<JobProblem>, n: nat) {
    && (forall i :: 0 <= i < |problems| ==> n <= Rank(problems[i]))
    && (forall a, b :: 0 <= a < b < |problems| ==> Rank(problems[a]) < Rank(problems[b]))
  }

  /** Putting the check of position `n` in front of the later failures
      keeps the ranks ascending. */
  lemma PushKeepsAscending(check: JobProblem, rest: seq<JobProblem>, n: nat)
    requires Rank(check) == n && AscendingFrom(rest, n + 1)
    ensures AscendingFrom([check] + rest, n)
    ensures forall p :: p in [check] + rest <==> p == check || p in rest
  {
    var problems := [check] + rest;
    assert forall i :: 0 < i < |problems| ==> problems[i] == rest[i - 1];
  }

  /** The checks of `validateJobInput` that fail, at most one entry per
      check and in the order the checks run. */
  function JobProblems(job: JobInput): (problems: seq<JobProblem>)
    ensures |problems| <= 6
    ensures forall a, b :: 0 <= a < b < |problems| ==> Rank(problems[a]) < Rank(problems[b])
    ensures forall p :: p in problems <==> Fails(job, p)
  {
    ProblemsFrom(job, 0)
  }

  /** Each position belongs to exactly one check. */
  lemma RankIdentifies(n: nat)
    requires n < 6
    ensures forall p :: Rank(p) == n ==> p == CheckAt(n)
  {
  }

  /** Each check in terms of the job's fields: the `!field ||` guards add
      nothing to the trimmed-length tests, and a zero salary is not negative. */
  lemma FailsByField(job: JobInput)
    ensures Fails(job, ShortTitle) <==> |Trim(job.title)| < 3
    ensures Fails(job, ShortCompany) <==> |Trim(job.company)| < 2
    ensures Fails(job, ShortLocation) <==> |Trim(job.location)| < 2
    ensures Fails(job, UnknownType) <==> job.jobType !in JobTypes
    ensures Fails(job, ShortDescription) <==> |Trim(job.description)| < 50
    ensures Fails(job, NegativeSalary) <==> job.salary.Some? && job.salary.value < 0
  {
  }

  /** No check fails exactly when the job satisfies every rule. */
  lemma NoProblemsIffAcceptable(job: JobInput)
    ensures JobProblems(job) == [] <==> AcceptableJob(job)
  {
    var problems := JobProblems(job);
    FailsByField(job);
    if problems != [] {
      assert problems[0] in problems;
    } else {
      assert !Fails(job, ShortTitle) && !Fails(job, ShortCompany) && !Fails(job, ShortLocation);
      assert !Fails(job, UnknownType) && !Fails(job, ShortDescription) && !Fails(job, NegativeSalary);
    }
  }

  /** The message of each problem, in order. */
  function MessagesOf(problems: seq<JobProblem>): (messages: seq<string>)
    ensures |messages| == |problems|
    ensures forall i :: 0 <= i < |problems| ==> messages[i] == Message(problems[i])
  {
    if |problems| == 0 then []
    else
      var rest := MessagesOf(problems[1..]);
      assert forall i :: 0 < i < |problems| ==> problems[i] == problems[1..][i - 1];
      [Message(problems[0])] + rest
  }

  /** `validateJobInput`: the messages of the failed checks, none exactly
      when the job satisfies every rule. */
  function ValidateJobInput(job: JobInput): (errors: seq<string>)
    ensures |errors| == |JobProblems(job)| <= 6
    ensures forall i :: 0 <= i < |errors| ==> errors[i] == Message(JobProblems(job)[i])
    ensures errors == [] <==> AcceptableJob(job)
  {
    NoProblemsIffAcceptable(job);
    MessagesOf(JobProblems(job))
  }

  /** The job rules stated on their own: long enough trimmed texts, a known
      type and a salary that is absent or not negative. */
  predicate AcceptableJob(job: JobInput) {
    && |Trim(job.title)| >= 3
    && |Trim(job.company)| >= 2
    && |Trim(job.location)| >= 2
    && job.jobType in JobTypes
    && |Trim(job.description)| >= 50
    && (job.salary.None? || job.salary.value >= 0)
  }

  /** Two jobs on which every check agrees get the same list. */
  lemma {:induction false} ProblemsFromAgree(job: JobInput, job': JobInput, n: nat)
    requires n <= 6
    requires forall p :: Fails(job, p) == Fails(job', p)
    ensures ProblemsFrom(job, n) == ProblemsFrom(job', n)
    decreases 6 - n
  {
    if n < 6 {
      ProblemsFromAgree(job, job', n + 1);
    }
  }

  /** The `requirements` field is never read. */
  lemma RequirementsIgnored(job: JobInput, requirements: string)
    ensures ValidateJobInput(job.(requirements := requirements)) == ValidateJobInput(job)
  {
    var job' := job.(requirements := requirements);
    ProblemsFromAgree(job', job, 0);
  }

  // ---------------------------------------------------------- application

  const CoverLetterMessage := "Cover letter must be at least 100 characters long"

  /** `validateApplication` on the `coverLetter` field ("" when missing). */
  function ValidateApplication(coverLetter: string): (errors: seq<string>)
    ensures errors == [] <==> |Trim(coverLetter)| >= 100
    ensures errors != [] ==> errors == [CoverLetterMessage]
  {
    Complaint(TooShort(coverLetter, 100), CoverLetterMessage)
  }

  // ------------------------------------------------------------- sanitiser

  /** A JavaScript value handed to `sanitizeInput`: a string, or anything
      else (kept opaque). */
  datatype JsValue = JsString(s: string) | JsOther(tag: nat)

  /** `s.replace(/c/g, rep)`: every occurrence of `c` becomes `rep`. */
  function ReplaceAll(s: string, c: char, rep: string): (r: string)
    ensures c !in rep ==> c !in r
    ensures c !in s ==> r == s
  {
    if |s| == 0 then []
    else (if s[0] == c then rep else [s[0]]) + ReplaceAll(s[1..], c, rep)
  }

  /** The five replacements as written, applied one after the other. */
  function SanitizeText(s: string): string {
    ReplaceAll(ReplaceAll(ReplaceAll(ReplaceAll(ReplaceAll(s,
      '<', "&lt;"), '>', "&gt;"), '"', "&quot;"), '\'', "&#x27;"), '/', "&#x2F;")
  }

  /** `sanitizeInput`: strings are escaped, every other value is returned
      unchanged. */
  function SanitizeInput(v: JsValue): (r: JsValue)
    ensures !v.JsString? ==> r == v
    ensures v.JsString? ==> r == JsString(Escape(v.s))
  {
    match v
    case JsString(s) => SanitizeChainIsEscape(s); JsString(SanitizeText(s))
    case JsOther(_) => v
  }

  /** The characters the sanitiser rewrites. */
  predicate Escaped(c: char) {
    c == '<' || c == '>' || c == '"' || c == '\'' || c == '/'
  }

  /** The entity each character becomes; other characters, '&' included,
      stand for themselves. */
  function Entity(c: char): (e: string)
    ensures forall k :: 0 <= k < |e| ==> !Escaped(e[k])
    ensures |e| >= 1
    ensures !Escaped(c) ==> e == [c]
  {
    if c == '<' then "&lt;"
    else if c == '>' then "&gt;"
    else if c == '"' then "&quot;"
    else if c == '\'' then "&#x27;"
    else if c == '/' then "&#x2F;"
    else [c]
  }

  /** The character-by-character reading of the sanitiser. */
  function Escape(s: string): (r: string)
    ensures |r| >= |s|
    ensures forall k :: 0 <= k < |r| ==> !Escaped(r[k])
  {
    if |s| == 0 then [] else Entity(s[0]) + Escape(s[1..])
  }

  lemma {:induction false} ReplaceAllConcat(a: string, b: string, c: char, rep: string)
    ensures ReplaceAll(a + b, c, rep) == ReplaceAll(a, c, rep) + ReplaceAll(b, c, rep)
  {
    if |a| == 0 {
      assert a + b == b;
    } else {
      assert (a + b)[1..] == a[1..] + b;
      ReplaceAllConcat(a[1..], b, c, rep);
    }
  }

  lemma ReplaceAllSingle(x: char, c: char, rep: string)
    ensures ReplaceAll([x], c, rep) == if x == c then rep else [x]
  {
    assert [x][1..] == [];
  }

  lemma SanitizeSingle(x: char)
    ensures SanitizeText([x]) == Entity(x)
  {
    ReplaceAllSingle(x, '<', "&lt;");
    ReplaceAllSingle(x, '>', "&gt;");
    ReplaceAllSingle(x, '"', "&quot;");
    ReplaceAllSingle(x, '\'', "&#x27;");
    ReplaceAllSingle(x, '/', "&#x2F;");
    if x == '<' {
      assert '>' !in "&lt;" && '"' !in "&lt;" && '\'' !in "&lt;" && '/' !in "&lt;";
    } else if x == '>' {
      assert '"' !in "&gt;" && '\'' !in "&gt;" && '/' !in "&gt;";
    } else if x == '"' {
      assert '\'' !in "&quot;" && '/' !in "&quot;";
    } else if x == '\'' {
      assert '/' !in "&#x27;";
    }
  }

  /** The chain of five global replacements equals the per-character entity
      map: no replacement introduces a character a later one rewrites. */
  lemma {:induction false} SanitizeChainIsEscape(s: string)
    ensures SanitizeText(s) == Escape(s)
  {
    if |s| > 0 {
      assert s == [s[0]] + s[1..];
      ReplaceAllConcat([s[0]], s[1..], '<', "&lt;");
      var a1, b1 := ReplaceAll([s[0]], '<', "&lt;"), ReplaceAll(s[1..], '<', "&lt;");
      ReplaceAllConcat(a1, b1, '>', "&gt;");
      var a2, b2 := ReplaceAll(a1, '>', "&gt;"), ReplaceAll(b1, '>', "&gt;");
      ReplaceAllConcat(a2, b2, '"', "&quot;");
      var a3, b3 := ReplaceAll(a2, '"', "&quot;"), ReplaceAll(b2, '"', "&quot;");
      ReplaceAllConcat(a3, b3, '\'', "&#x27;");
      var a4, b4 := ReplaceAll(a3, '\'', "&#x27;"), ReplaceAll(b3, '\'', "&#x27;");
      ReplaceAllConcat(a4, b4, '/', "&#x2F;");
      SanitizeSingle(s[0]);
      SanitizeChainIsEscape(s[1..]);
    }
  }

  /** A text without escaped characters passes through unchanged. */
  lemma {:induction false} EscapeFixesPlainText(s: string)
    requires forall k :: 0 <= k < |s| ==> !Escaped(s[k])
    ensures Escape(s) == s
  {
    if |s| > 0 {
      EscapeFixesPlainText(s[1..]);
      assert s == [s[0]] + s[1..];
    }
  }

  /** Sanitising twice is sanitising once: the output contains no character
      the sanitiser rewrites, and '&' is left alone. */
  lemma SanitizeIdempotent(v: JsValue)
    ensures SanitizeInput(SanitizeInput(v)) == SanitizeInput(v)
  {
    if v.JsString? {
      EscapeFixesPlainText(Escape(v.s));
    }
  }
}
